=== FILE: README.md ===
# Remote management API test client: a Dafny model

This project models the core of `mgmt/api/APITestCliRemote.cc`, the
interactive client that exercises the proxy's remote management API. It
covers these parts:

- **The command loop** (`runInteractive`). Every line read at the prompt is
  classified: a bare newline is ignored, `quit` or `exit` in any letter case
  leaves the loop, and otherwise a fixed chain of keyword tests picks the
  command, with `sync_test` as the fallback. The `start:<arg>` argument
  parsing of `start_TS` is included.
- **The rule-context tests**. `cfg_get:<file>` and `cfg:<file>` map the
  second `strtok` token of the line to a configuration file through a
  fixed table. `test_cfg_context_move` then moves every rule up, moves
  every rule but the last two down, and commits only if every move
  succeeded. The original first and last rules trade places.
- **The FIFO list printers** (`print_ports`, `print_string_list`,
  `print_int_list`, `print_domain_list`, `print_ip_list`,
  `print_list_of_ip_list`). Each one walks its list by `Len` rounds of
  dequeue, print, enqueue.
- **The element printers** for IP addresses, remapping rules, caching rules
  and split-DNS rules.

Modules:

- `Results` holds `Option` and `Result`.
- `Text` stands in for the C string calls: `strtok`, `strstr`, `strncmp`,
  `strcasecmp` and `%d`.
- One module per part above: `Dispatch`, `FileNames`, `ContextMove`, `Fifo`,
  `IpAddr`, `Remap`, `CacheRule`, `SplitDns`.

Each printer comes with a reader for the text it writes. The round-trip
lemma (read after print gives back what was printed) is what pins down the
printed format. Printing goes to a returned string. Calls into the
management API and into helpers defined in other files become parameters:

- the move engine is a function `step`;
- `pdest_sspec_to_string` and `hms_time_to_string` are function
  parameters that may fail;
- `ip_addr_list_to_string` and `domain_list_to_string` are total function
  parameters.

## Model

| member | source | states |
|---|---|---|
| Fifo.Dequeue | mgmt/api/APITestCliRemote.cc:153 | Dequeuing fails exactly on an empty list; otherwise the front element followed by the rest is the list. |
| Fifo.Enqueue | mgmt/api/APITestCliRemote.cc:158 | The element joins at the back; the elements already queued keep their places. |
| Fifo.CycleNRotates | mgmt/api/APITestCliRemote.cc:151-159 | After n dequeue-then-enqueue rounds, the first n elements have moved, in order, behind the others. |
| Fifo.CycleStep | mgmt/api/APITestCliRemote.cc:152-159 | Round i dequeues the element at position i of the original list, so elements are visited front to back. |
| Fifo.CycleLengthRestores | mgmt/api/APITestCliRemote.cc:151-159 | `Len` rounds give back the original list: same contents, same order. |
| Fifo.Traverse | mgmt/api/APITestCliRemote.cc:151-159 | A printer's walk leaves the list as it found it, visits every element once front to back, and prints their texts in that order. |
| Fifo.IntListRoundTrip | mgmt/api/APITestCliRemote.cc:197-204 | The label, the `%d:` fields and the closing ` \n` read back as the list, in order, for every list of integers including negative ones. |
| Fifo.IntListAsWrittenShowsStaleBuffer | mgmt/api/APITestCliRemote.cc:193-204 | As written, an empty list prints the uninitialised buffer; a buffer holding `5:` makes the line read as `[5]`. |
| Fifo.IntListLine | mgmt/api/APITestCliRemote.cc:200-204 | The intended line reads back as the list it was printed from; an empty list prints `Int List:  \n`. |
| Fifo.PrintIntList | mgmt/api/APITestCliRemote.cc:191-205 | `print_int_list` leaves the list unchanged and prints the line as written: for a non-empty list the line reads back as the list, and for an empty one the stale buffer shows. |
| Fifo.StringListText | mgmt/api/APITestCliRemote.cc:174-176 | A null list prints nothing, and only a null list does. |
| Fifo.StringListRoundTrip | mgmt/api/APITestCliRemote.cc:177-184 | The `a,b,..., ` line reads back as the list, in order, when its strings are non-empty and comma-free. |
| Fifo.StringListAsWrittenShowsStaleBuffer | mgmt/api/APITestCliRemote.cc:172-184 | As written, an empty non-null list prints the uninitialised buffer, which can read as a list the caller never had. |
| Fifo.PrintStringList | mgmt/api/APITestCliRemote.cc:168-185 | `print_string_list` hands back the queue its walk restored and prints the text as written: nothing for a null list, the stale buffer for an empty one, and otherwise a line that reads back as the list when its strings are non-empty and comma-free. |
| Fifo.PortLines | mgmt/api/APITestCliRemote.cc:154-157 | The first port's line is always printed, and a second (range) line follows exactly when the second port is not -1. |
| Fifo.PortLinesRoundTrip | mgmt/api/APITestCliRemote.cc:154-157 | One port element's lines read back as the element. The range line appears exactly when the second port is not -1. |
| Fifo.PrintPorts | mgmt/api/APITestCliRemote.cc:146-162 | `print_ports` leaves the list unchanged and prints each element's lines front to back. |
| Fifo.DomainLine | mgmt/api/APITestCliRemote.cc:219-220 | A domain prints nothing exactly when its name is null. |
| Fifo.DomainLineRoundTrip | mgmt/api/APITestCliRemote.cc:220 | A named domain's `name:port` line reads back as its name and port, splitting at the last colon. |
| Fifo.DomainListSkipsNameless | mgmt/api/APITestCliRemote.cc:216-223 | The list's text is the text of its named domains only, in order. |
| Fifo.PrintDomainList | mgmt/api/APITestCliRemote.cc:211-224 | `print_domain_list` leaves the list unchanged and prints the lines of its named domains, in order. |
| Fifo.PrintIpList | mgmt/api/APITestCliRemote.cc:252-264 | `print_ip_list` leaves the list unchanged and prints one element line per element, in order. |
| Fifo.IpListSingle | mgmt/api/APITestCliRemote.cc:257-263 | A one-element address list prints exactly its element's line, which reads back as the element. |
| Fifo.IpListBlock | mgmt/api/APITestCliRemote.cc:278-280 | A block holding one well-formed address reads back, between its two newlines, as that address. |
| Fifo.PrintListOfIpList | mgmt/api/APITestCliRemote.cc:270-283 | The outer list is left unchanged. The text is each inner list's block, in order. |
| IpAddr.IpAddrEleText | mgmt/api/APITestCliRemote.cc:233-245 | Every element's line starts with `IP_addr: ` and ends in a newline; IpAddrRoundTrip states what it shows. |
| IpAddr.PrintIpAddrEle | mgmt/api/APITestCliRemote.cc:229-231 | A null element prints nothing, and only a null element does. |
| IpAddr.RangeCidrRoundTrip | mgmt/api/APITestCliRemote.cc:234-235 | A range with a first prefix length reads back with both addresses and both prefix lengths. |
| IpAddr.RangePlainRoundTrip | mgmt/api/APITestCliRemote.cc:236-238 | A range without a first prefix length reads back with both addresses and no prefix lengths. |
| IpAddr.SingleRoundTrip | mgmt/api/APITestCliRemote.cc:239-244 | A non-range element reads back as a single address, with its prefix length when one is set. |
| IpAddr.IpAddrRoundTrip | mgmt/api/APITestCliRemote.cc:226-246 | Every element whose addresses hold no blank or slash reads back as what the line shows. The line hides the second end of a non-range, and the second prefix length when the first is -1. |
| Remap.TypeNameRoundTrip | mgmt/api/APITestCliRemote.cc:555-572 | Each rule-type keyword is blank-free and reads back as its type; other types print an empty keyword. |
| Remap.PortPartRoundTrip | mgmt/api/APITestCliRemote.cc:597-604 | A port and optional path prefix read back from `port[/prefix]`. |
| Remap.HostPartRoundTrip | mgmt/api/APITestCliRemote.cc:592-604 | Host, port and prefix read back from `host[:port][/prefix]`, with the port shown only when it is not the invalid port. |
| Remap.EndpointRoundTrip | mgmt/api/APITestCliRemote.cc:576-604 | A well-formed endpoint reads back from `scheme://host[:port][/prefix]`, where an undefined scheme reads back as none and an empty host as a null one. |
| Remap.RemapRoundTrip | mgmt/api/APITestCliRemote.cc:555-637 | Every well-formed remapping rule reads back from its printed line: type, both schemes, hosts, ports and prefixes. |
| Remap.PrintRemapEle | mgmt/api/APITestCliRemote.cc:545-637 | `print_remap_ele` prints `can't print ele` for a null element; otherwise it prints the rule line, which reads back as the rule when the rule is well formed. |
| CacheRule.ActionTailAsWritten | mgmt/api/APITestCliRemote.cc:402-434 | As written, the ignore-client action prints the server label and vice versa. No directive is printed exactly for an undefined action or a timed action whose time cannot be rendered. |
| CacheRule.ActionTail | mgmt/api/APITestCliRemote.cc:402-434 | The corrected directive. It is absent in exactly the same cases as the written one. |
| CacheRule.ActionTailRoundTrip | mgmt/api/APITestCliRemote.cc:402-430 | Every corrected directive reads back as its action and, for `pin-in-cache`/`revalidate`, its time text. |
| CacheRule.AsWrittenSwapsClientAndServer | mgmt/api/APITestCliRemote.cc:409-414 | As written, the ignore-client directive reads back as ignore-server, and the reverse. |
| CacheRule.AsWrittenAgreesElsewhere | mgmt/api/APITestCliRemote.cc:402-434 | The written and corrected directives agree on every other action. |
| CacheRule.SwapLabels | mgmt/api/APITestCliRemote.cc:409-414 | Exchanges exactly the ignore-client and ignore-server actions and fixes every other action. |
| CacheRule.AsWrittenIsSwapped | mgmt/api/APITestCliRemote.cc:402-434 | The written directive of every action is the corrected directive of its label-swapped action. |
| CacheRule.PrintCacheEle | mgmt/api/APITestCliRemote.cc:377-435 | `print_cache_ele` as written, with swapped labels. A null element, a null destination text and an undefined action each print their own diagnostic. |
| CacheRule.AsWrittenCacheLineRoundTrip | mgmt/api/APITestCliRemote.cc:391-435 | A rule printed as written reads back with its destination text and kept time text intact but its action label-swapped: ignore-client reads back as ignore-server and vice versa. |
| CacheRule.PrintCacheEleIntended | mgmt/api/APITestCliRemote.cc:377-435 | The corrected printer, with each action under its own label; it prints the same diagnostics. |
| CacheRule.CacheLineRoundTrip | mgmt/api/APITestCliRemote.cc:391-435 | A rule printed as intended reads back as its destination text, action and kept time text, when the time text has no blank. |
| SplitDns.SplitDnsText | mgmt/api/APITestCliRemote.cc:690-717 | The body is empty exactly when the element has no destination value, server list, default domain or search list. |
| SplitDns.PrintSplitDnsEle | mgmt/api/APITestCliRemote.cc:660-663 | A null element prints the diagnostic; every output ends in a newline. |
| SplitDns.FieldsRoundTrip | mgmt/api/APITestCliRemote.cc:690-717 | Any sequence of `key=value ` tokens reads back field by field, when keys are non-empty words and values have no `=`. |
| SplitDns.ViewFieldsBack | mgmt/api/APITestCliRemote.cc:690-717 | The fields in printing order read back as the rule's view: each optional field is present exactly when it was printed. |
| SplitDns.TextIsFields | mgmt/api/APITestCliRemote.cc:690-717 | The printed body is the rendering of the view's fields in the order destination, `named`, `dns_server`, `search_list`. |
| SplitDns.ViewRoundTrip | mgmt/api/APITestCliRemote.cc:690-718 | A view with `=`-free values reads back from its line. |
| SplitDns.SplitDnsRoundTrip | mgmt/api/APITestCliRemote.cc:658-722 | Every split-DNS rule with `=`-free values reads back as what it shows: destination key and value, server list text, default domain, search list text. |
| FileNames.FileForGet | mgmt/api/APITestCliRemote.cc:1417-1442 | A name the get table accepts is the selected file's own name. |
| FileNames.FileForMove | mgmt/api/APITestCliRemote.cc:1481-1504 | A name the move table accepts is the selected file's own name, and the file is never `plugin.config`. |
| FileNames.GetTableAcceptsEveryFile | mgmt/api/APITestCliRemote.cc:1417-1438 | Each of the eleven file names selects its own file, despite the earlier comparisons in the chain. |
| FileNames.GetTableExact | mgmt/api/APITestCliRemote.cc:1417-1442 | A name selects a file if and only if it is that file's name. |
| FileNames.MoveTableOmitsPlugin | mgmt/api/APITestCliRemote.cc:1481-1504 | The move table is the get table with `plugin.config` rejected and nothing else changed. |
| FileNames.CommandTokensAsWritten | mgmt/api/APITestCliRemote.cc:1411-1412 | As written, the second colon token of `<command>:<file>\n` keeps the newline. |
| FileNames.AsWrittenRejectsEveryTypedFile | mgmt/api/APITestCliRemote.cc:1411-1442 | As written, a line `cfg_get:<name>\n` or `cfg:<name>\n` with a colon-free name selects no file. |
| FileNames.TrailingColonSelectsFile | mgmt/api/APITestCliRemote.cc:1411-1442 | As written, a second colon after the name (`cfg_get:<name>:\n`) ends the token before the newline, so the name is looked up as the tables expect. |
| FileNames.TypedCommandSelectsFile | mgmt/api/APITestCliRemote.cc:1475-1504 | With the newline treated as a separator, a typed command selects a file exactly when the name is that file's; `cfg:` still refuses `plugin.config`. |
| ContextMove.ApplyMove | mgmt/api/APITestCliRemote.cc:1459-1464 | The reference engine moves a rule by swapping it with its neighbour, which gives the end exchange the comment describes, and keeps the rule count. It refuses `moveUp(i)` outside 0 < i < count and `moveDown(i)` outside 0 <= i < count-1; these bounds are this model's choice. |
| ContextMove.MoveUpThenDownRestores | mgmt/api/APITestCliRemote.cc:1459-1464 | Moving a rule up and then moving it back down restores the context. |
| ContextMove.MoveKeepsRules | mgmt/api/APITestCliRemote.cc:1459-1464 | A successful move only reorders the rules (same multiset). |
| ContextMove.Schedule | mgmt/api/APITestCliRemote.cc:1516-1533 | Fewer than two rules issue no move; otherwise 2·count-3 moves are issued. |
| ContextMove.ScheduleIndicesInRange | mgmt/api/APITestCliRemote.cc:1516-1533 | Every move up names an index in 1..count-1 and every move down an index in 0..count-3. |
| ContextMove.ReplayAppend | mgmt/api/APITestCliRemote.cc:1516-1533 | Issuing `a + b` is issuing `a`, then `b` from the context `a` left, unless `a` failed. |
| ContextMove.Issue | mgmt/api/APITestCliRemote.cc:1517-1521 | One loop step issues the next scheduled move. On success the replayed context advances; on failure the run is aborted at that move. |
| ContextMove.FailureIsFinal | mgmt/api/APITestCliRemote.cc:1518-1532 | Once a prefix of moves fails, the whole run of moves fails. |
| ContextMove.UpPass | mgmt/api/APITestCliRemote.cc:1514-1522 | The first loop issues `moveUp(1..count-1)` in order. On success the replayed context matches; on failure it stops at the failing move. |
| ContextMove.DownPass | mgmt/api/APITestCliRemote.cc:1524-1533 | The second loop continues with `moveDown(count-3..0)`. On success the whole schedule was issued; on failure it stops at the failing move. |
| ContextMove.RunMove | mgmt/api/APITestCliRemote.cc:1514-1541 | For any engine, the driver commits if and only if every scheduled move succeeds. On abort, the issued moves are a schedule prefix ending in the failed move, and the context is the one before it. |
| ContextMove.SwapEnds | mgmt/api/APITestCliRemote.cc:1462-1464 | The first and last rules are exchanged and all others stay in place. |
| ContextMove.UpsPhase | mgmt/api/APITestCliRemote.cc:1514-1522 | On the reference engine, after the moves up the original top rule has been carried down to the bottom. |
| ContextMove.DownsPhase | mgmt/api/APITestCliRemote.cc:1524-1533 | On the reference engine, the moves down carry the rule next to the bottom up to the top. |
| ContextMove.ScheduleSwapsEnds | mgmt/api/APITestCliRemote.cc:1462-1533 | On the reference engine the schedule always succeeds and exchanges the original first and last rules. |
| ContextMove.MoveWithReferenceEngine | mgmt/api/APITestCliRemote.cc:1506-1541 | On the reference engine the driver issues the whole schedule, commits, and commits the context with its ends exchanged. |
| Dispatch.Dispatch | mgmt/api/APITestCliRemote.cc:2024-2032 | A line is skipped exactly when it is a bare newline, and leaves the loop exactly when it is otherwise `quit\n`/`exit\n` ignoring case. |
| Dispatch.Chain | mgmt/api/APITestCliRemote.cc:2034-2094 | The chain runs either the action of a test the line passes or `sync_test`. |
| Dispatch.FirstPassingTestWins | mgmt/api/APITestCliRemote.cc:2034-2091 | A line runs the action of test k if and only if it passes test k and none of the tests before it. |
| Dispatch.FallbackWhenNothingMatches | mgmt/api/APITestCliRemote.cc:2092-2094 | `sync_test` runs if and only if the line is not blank, not quit, and passes no test of the chain. |
| Dispatch.QuitIgnoresCase | mgmt/api/APITestCliRemote.cc:2024-2032 | `QUIT\n` and `Exit\n` quit; `\n` is skipped. |
| Dispatch.StateShadowsEverything | mgmt/api/APITestCliRemote.cc:2034-2035 | Any line holding `state` shows the proxy state, whatever else it holds. |
| Dispatch.StartPrefixReachesStart | mgmt/api/APITestCliRemote.cc:2034-2037 | A line beginning with `start` that does not hold `state` starts the proxy. |
| Dispatch.RestartReachesItsBranch | mgmt/api/APITestCliRemote.cc:2034-2041 | `restart\n` fails the `state`, `start` and `stop` tests and reaches `restart`. |
| Dispatch.UnregisterReachesItsBranch | mgmt/api/APITestCliRemote.cc:2062-2065 | `unregister\n` reaches its own branch: `register` is a prefix test and does not capture it. |
| Dispatch.StartClear | mgmt/api/APITestCliRemote.cc:828-838 | A clearing other than none requires a second colon token. |
| Dispatch.StartClearOfArgument | mgmt/api/APITestCliRemote.cc:828-838 | For every non-empty, colon-free argument after `start:`, `all\n` clears the cache, `hostdb\n` clears the host database, and any other argument (including one without its newline) clears nothing. |
| Dispatch.StartLineRoundTrip | mgmt/api/APITestCliRemote.cc:822-838 | `start\n`, `start:all\n` and `start:hostdb\n` ask for no clearing, cache clearing and host-database clearing respectively. |
| Dispatch.StartLineDispatched | mgmt/api/APITestCliRemote.cc:2036-2037 | Each of the three start lines reaches `start_TS`. |
| Dispatch.Session | mgmt/api/APITestCliRemote.cc:2008-2094 | A session runs no skip or quit command and at most one command per line. |
| Dispatch.SessionStopsAtQuit | mgmt/api/APITestCliRemote.cc:2028-2032 | Nothing typed after the first quit is run. |
| Dispatch.RunInteractive | mgmt/api/APITestCliRemote.cc:2008-2094 | The loop runs exactly the session's commands for the lines typed. |
| Text.ContainsAt | mgmt/api/APITestCliRemote.cc:2034 | The `strstr` test holds exactly when the keyword is a prefix of some suffix of the line. |
| Text.NthToken | mgmt/api/APITestCliRemote.cc:828-829 | The n-th `strtok` token exists exactly when there are more than n tokens, and it is non-empty and delimiter-free. |
| Text.TokensCoverInput | mgmt/api/APITestCliRemote.cc:1411-1412 | `strtok` loses exactly the delimiters: the tokens glued together are the input without them. |
| Text.IntTextRoundTrip | mgmt/api/APITestCliRemote.cc:200 | Every integer printed with `%d` reads back unchanged. |

## Left out

- The management API calls (`TSCfgContextCreate/Get/Commit/Destroy`, `TSProxyStateSet`, the `TS*ListLen/Dequeue/Enqueue` containers) are outside this file. The containers are modelled as `seq` queues. The move engine is a parameter. `ContextMove.ApplyMove` is a reference engine whose swaps give the end exchange the comment at lines 1459-1464 describes.
- Terminal I/O (`printf`, `fprintf(stderr, ...)`, `fgets`) is left out. Output is returned as strings, and the interactive loop takes the typed lines as a sequence. End of file and read errors end that sequence; they are not modelled separately. The sequence holds only newline-terminated lines: an unterminated last line typed before end of file is not run, because the loop returns on end of file before looking at the buffer (lines 2013-2019).
- `fgets` truncates lines at 511 bytes, and `MAX_BUF_SIZE` and the 1000-byte buffers truncate rendered text. Neither truncation is modelled; strings are unbounded.
- `print_remap_ele` appends the port with `snprintf(buf, ..., "%s:%d", buf, ...)`, whose source and destination overlap (lines 598 and 629). This is undefined behaviour in C. It is modelled as the evidently intended append.
- `TS_INVALID_PORT` is defined in `mgmtapi.h`, which is not part of this model. It is taken to be 0.
- A `cfg_get:`/`cfg:` line with no second token hands a null file name to `strcmp`. It is modelled as a name no table accepts.
- A failed `TSCfgContextGet` prints an error and does not stop the driver. This is modelled implicitly: the rules are whatever the context holds.
- `print_list_of_ip_list` counts its outer `TSList` with `TSIpAddrListLen`. The model takes the count as the outer list's length.
- The bodies of the commands the dispatcher selects (records, snapshots, events, statistics, `test_cfg_plugin`, `test_cfg_socks`, `print_ele_list` and the other element printers) are not modelled. Only which command a line selects is.
- The helpers `pdest_sspec_to_string`, `hms_time_to_string`, `ip_addr_list_to_string` and `domain_list_to_string` live outside this file. They are function parameters.
- A null result from `ip_addr_list_to_string` or `domain_list_to_string` (lines 699-700 and 713-714) is not modelled. Those two parameters are total functions.
- Fifo.StringListRoundTrip: stated for non-empty, comma-free strings only. `strtok` cannot recover empty strings or strings containing commas from the printed line.
- IpAddr.IpAddrRoundTrip, Remap.RemapRoundTrip, CacheRule.CacheLineRoundTrip, CacheRule.AsWrittenCacheLineRoundTrip, SplitDns.SplitDnsRoundTrip: stated for values free of the printer's own separators, because other values print ambiguously. They are stated up to what the line shows, e.g. an undefined scheme prints like none.
- ContextMove.ApplyMove: the real `TSCfgContextMoveEleUp`/`TSCfgContextMoveEleDown` are not part of this model, so the outcome of a boundary move (an error or a successful no-op) is assumed, as an `IndexError`. The swap behaviour follows the comment at lines 1459-1464. No driver result depends on the bounds, because `ContextMove.ScheduleIndicesInRange` shows the schedule never issues a boundary index.
- Dispatch.UnregisterReachesItsBranch, Dispatch.RestartReachesItsBranch: stated for the one literal line each (passed as a parameter equal to it). Dispatch.FirstPassingTestWins covers every line.

## Findings

| source | as written | input that shows it | evidently intended | confidence | as-written member | corrected member |
|---|---|---|---|---|---|---|
| mgmt/api/APITestCliRemote.cc:1411-1442 | The file name is the second `strtok(..., ":")` token of the line `fgets` read, so it keeps the trailing newline and matches no table entry. `start_TS` compares against `"all\n"` for the same reason. Typing a second colon (`cfg_get:cache.config:`) works around it, as FileNames.TrailingColonSelectsFile shows. | `cfg_get:cache.config\n` | The name read without its newline selects `cache.config` | high, not executed | FileNames.AsWrittenRejectsEveryTypedFile | FileNames.TypedCommandSelectsFile |
| mgmt/api/APITestCliRemote.cc:409-414 | `TS_CACHE_IGNORE_CLIENT_NO_CACHE` prints `action=ignore-server-no-cache`, and the server action prints the client label | an element with action `TS_CACHE_IGNORE_CLIENT_NO_CACHE` | Each action printed under its own label | medium, not executed | CacheRule.AsWrittenCacheLineRoundTrip | CacheRule.CacheLineRoundTrip |
| mgmt/api/APITestCliRemote.cc:193-204 | `buf` is never initialised, and only the loop writes to it, so an empty list prints whatever the stack held | an empty `TSIntList` | `Int List:  ` with nothing between the label and the blank | high, not executed | Fifo.IntListAsWrittenShowsStaleBuffer | Fifo.IntListRoundTrip |
| mgmt/api/APITestCliRemote.cc:170-184 | The same uninitialised buffer in `print_string_list` | an empty, non-null `TSStringList` | an empty line body | high, not executed | Fifo.StringListAsWrittenShowsStaleBuffer | Fifo.StringListRoundTrip |

=== FILE: cache.dfy ===
/** The caching rule (`TSCacheEle`) as `print_cache_ele` prints it: the
    destination text, a blank, then an action directive. The destination and
    the time period are turned into text by helpers defined outside the test
    driver (`pdest_sspec_to_string`, `hms_time_to_string`); they appear here
    as function parameters, each of which may fail (a null result). */
module CacheRule {
  import opened Results
  import opened Text

  datatype CacheAction =
    | NeverCache
    | IgnoreNoCache
    | IgnoreClientNoCache
    | IgnoreServerNoCache
    | PinInCache
    | Revalidate
    | UndefinedAction

  /** The two actions whose directive carries a time period. */
  predicate Timed(a: CacheAction) {
    a == PinInCache || a == Revalidate
  }

  /** A cache rule: destination and secondary specifiers of some type `D`,
      the action, and a time period of some type `H`. */
  datatype CacheEle<D, H> = CacheEle(dest: D, action: CacheAction, period: H)

  /** The directive text the driver writes after the destination, as the
      code is written: the client and server labels are exchanged. `None`
      means no line is printed: an undefined action, or a time period the
      helper could not render. */
  function ActionTailAsWritten(a: CacheAction, time: Option<string>): (r: Option<string>)
    ensures a == IgnoreClientNoCache ==> r == Some("action=ignore-server-no-cache")
    ensures a == IgnoreServerNoCache ==> r == Some("action=ignore-client-no-cache")
    ensures r.None? <==> a == UndefinedAction || (Timed(a) && time.None?)
  {
    match a
    case NeverCache => Some("action=never-cache")
    case IgnoreNoCache => Some("action=ignore-no-cache")
    case IgnoreClientNoCache => Some("action=ignore-server-no-cache")
    case IgnoreServerNoCache => Some("action=ignore-client-no-cache")
    case PinInCache => (match time case None => None case Some(t) => Some("pin-in-cache=" + t))
    case Revalidate => (match time case None => None case Some(t) => Some("revalidate=" + t))
    case UndefinedAction => None
  }

  /** The directive text with each action under its own label, as the
      configuration syntax names them. */
  function ActionTail(a: CacheAction, time: Option<string>): (r: Option<string>)
    ensures r.None? <==> a == UndefinedAction || (Timed(a) && time.None?)
  {
    match a
    case NeverCache => Some("action=never-cache")
    case IgnoreNoCache => Some("action=ignore-no-cache")
    case IgnoreClientNoCache => Some("action=ignore-client-no-cache")
    case IgnoreServerNoCache => Some("action=ignore-server-no-cache")
    case PinInCache => (match time case None => None case Some(t) => Some("pin-in-cache=" + t))
    case Revalidate => (match time case None => None case Some(t) => Some("revalidate=" + t))
    case UndefinedAction => None
  }

  /** Reads a directive back into the action and, for timed actions, the
      time text. */
  function ParseActionTail(t: string): Option<(CacheAction, Option<string>)> {
    if t == "action=never-cache" then Some((NeverCache, None))
    else if t == "action=ignore-no-cache" then Some((IgnoreNoCache, None))
    else if t == "action=ignore-client-no-cache" then Some((IgnoreClientNoCache, None))
    else if t == "action=ignore-server-no-cache" then Some((IgnoreServerNoCache, None))
    else if IsPrefix("pin-in-cache=", t) then Some((PinInCache, Some(t[13..])))
    else if IsPrefix("revalidate=", t) then Some((Revalidate, Some(t[11..])))
    else None
  }

  /** The time text kept with an action: only timed actions keep one. */
  function KeptTime(a: CacheAction, time: Option<string>): Option<string> {
    if Timed(a) then time else None
  }

  /** Every directive the corrected printer writes names the action it was
      written for. */
  lemma {:induction false} ActionTailRoundTrip(a: CacheAction, time: Option<string>)
    requires ActionTail(a, time).Some?
    ensures ParseActionTail(ActionTail(a, time).value) == Some((a, KeptTime(a, time)))
  {
    match a
    case PinInCache =>
      var t := "pin-in-cache=" + time.value;
      assert t[..13] == "pin-in-cache=" && t[13..] == time.value;
      assert t[0] == 'p';
    case Revalidate =>
      var t := "revalidate=" + time.value;
      assert t[..11] == "revalidate=" && t[11..] == time.value;
      assert t[0] == 'r';
    case _ =>
  }

  /** The directive the code as written prints for an element that ignores
      the client's no-cache reads back as the server one, and vice versa. */
  lemma AsWrittenSwapsClientAndServer()
    ensures ParseActionTail(ActionTailAsWritten(IgnoreClientNoCache, None).value) == Some((IgnoreServerNoCache, None))
    ensures ParseActionTail(ActionTailAsWritten(IgnoreServerNoCache, None).value) == Some((IgnoreClientNoCache, None))
  {
  }

  /** The printers agree on every action but the two no-cache ones. */
  lemma AsWrittenAgreesElsewhere(a: CacheAction, time: Option<string>)
    requires a != IgnoreClientNoCache && a != IgnoreServerNoCache
    ensures ActionTailAsWritten(a, time) == ActionTail(a, time)
  {
  }

  /** Exchanges the two no-cache actions whose labels the code as written
      mixes up; every other action is its own image. */
  function SwapLabels(a: CacheAction): (r: CacheAction)
    ensures a == IgnoreClientNoCache <==> r == IgnoreServerNoCache
    ensures a == IgnoreServerNoCache <==> r == IgnoreClientNoCache
    ensures a != IgnoreClientNoCache && a != IgnoreServerNoCache ==> r == a
  {
    match a
    case IgnoreClientNoCache => IgnoreServerNoCache
    case IgnoreServerNoCache => IgnoreClientNoCache
    case _ => a
  }

  /** The written directive of an action is the corrected directive of the
      action its label is swapped with. */
  lemma AsWrittenIsSwapped(a: CacheAction, time: Option<string>)
    ensures ActionTailAsWritten(a, time) == ActionTail(SwapLabels(a), time)
    ensures Timed(SwapLabels(a)) == Timed(a)
  {
  }

  /** The text of a rule printed with directive function `tailOf`: a null
      element, a null destination text and an undefined action each print
      their own diagnostic instead of a rule, and a timed action whose
      period cannot be rendered prints nothing. */
  function RuleText<D, H>(ele: Option<CacheEle<D, H>>, destText: D -> Option<string>,
                          timeText: H -> Option<string>,
                          tailOf: (CacheAction, Option<string>) -> Option<string>): (r: string)
    ensures ele.None? ==> r == "can't print ele\n"
    ensures ele.Some? && destText(ele.value.dest).None? ==> r == "pd_str is null.\n"
    ensures ele.Some? && destText(ele.value.dest).Some? && ele.value.action == UndefinedAction ==> r == "hello..\n"
  {
    match ele
    case None => "can't print ele\n"
    case Some(e) =>
      match destText(e.dest)
      case None => "pd_str is null.\n"
      case Some(pd) =>
        if e.action == UndefinedAction then "hello..\n"
        else
          var time := if Timed(e.action) then timeText(e.period) else None;
          match tailOf(e.action, time)
          case None => ""
          case Some(tail) => pd + " " + tail + "\n"
  }

  /** The text `print_cache_ele` writes, labels as in the code. `destText`
      and `timeText` stand for the two helpers. */
  function PrintCacheEle<D, H>(ele: Option<CacheEle<D, H>>, destText: D -> Option<string>,
                               timeText: H -> Option<string>): (r: string)
    ensures ele.None? ==> r == "can't print ele\n"
    ensures ele.Some? && destText(ele.value.dest).None? ==> r == "pd_str is null.\n"
    ensures ele.Some? && destText(ele.value.dest).Some? && ele.value.action == UndefinedAction ==> r == "hello..\n"
  {
    RuleText(ele, destText, timeText, ActionTailAsWritten)
  }

  /** The text `print_cache_ele` evidently means to write: each action under
      its own label. */
  function PrintCacheEleIntended<D, H>(ele: Option<CacheEle<D, H>>, destText: D -> Option<string>,
                                       timeText: H -> Option<string>): (r: string)
    ensures ele.None? ==> r == "can't print ele\n"
    ensures ele.Some? && destText(ele.value.dest).None? ==> r == "pd_str is null.\n"
    ensures ele.Some? && destText(ele.value.dest).Some? && ele.value.action == UndefinedAction ==> r == "hello..\n"
  {
    RuleText(ele, destText, timeText, ActionTail)
  }

  /** Splits a printed rule at its last blank into destination and directive. */
  function ParseCacheLine(t: string): Option<(string, CacheAction, Option<string>)> {
    if |t| == 0 || t[|t| - 1] != '\n' then None
    else
      var body := t[..|t| - 1];
      match LastIndexOf(body, ' ')
      case None => None
      case Some(i) =>
        match ParseActionTail(body[i + 1..])
        case None => None
        case Some(at) => Some((body[..i], at.0, at.1))
  }

  /** A directive with a blank-free time text is blank-free. */
  lemma TailNoBlank(a: CacheAction, time: Option<string>)
    requires ActionTail(a, time).Some?
    requires Timed(a) ==> NoneIn(time.value, {' '})
    ensures NoneIn(ActionTail(a, time).value, {' '})
  {
    match a
    case PinInCache =>
      assert NoneIn("pin-in-cache=", {' '});
      JoinNoBlank("pin-in-cache=", time.value);
    case Revalidate =>
      assert NoneIn("revalidate=", {' '});
      JoinNoBlank("revalidate=", time.value);
    case NeverCache =>
      assert NoneIn("action=never-cache", {' '});
    case IgnoreNoCache =>
      assert NoneIn("action=ignore-no-cache", {' '});
    case IgnoreClientNoCache =>
      assert NoneIn("action=ignore-client-no-cache", {' '});
    case IgnoreServerNoCache =>
      assert NoneIn("action=ignore-server-no-cache", {' '});
  }

  lemma JoinNoBlank(p: string, t: string)
    requires NoneIn(p, {' '}) && NoneIn(t, {' '})
    ensures NoneIn(p + t, {' '})
  {
    assert forall k :: |p| <= k < |p + t| ==> (p + t)[k] == t[k - |p|];
  }

  /** A printed rule splits at its last blank when the directive has none. */
  lemma CacheLineSplit(pd: string, tail: string)
    requires NoneIn(tail, {' '})
    ensures ParseCacheLine(pd + " " + tail + "\n")
         == match ParseActionTail(tail)
            case None => None
            case Some(at) => Some((pd, at.0, at.1))
  {
    var t := pd + " " + tail + "\n";
    var body := pd + [' '] + tail;
    assert t[..|t| - 1] == body;
    LastIndexOfBefore(pd, ' ', tail);
    assert body[..|pd|] == pd;
    assert body[|pd| + 1..] == tail;
  }

  /** A rule printed as intended reads back as its destination text, its
      action and, for timed actions, its time text, whenever the time text
      has no blank. */
  lemma {:induction false} CacheLineRoundTrip<D, H>(e: CacheEle<D, H>, destText: D -> Option<string>,
                                                   timeText: H -> Option<string>)
    requires destText(e.dest).Some? && e.action != UndefinedAction
    requires Timed(e.action) ==> timeText(e.period).Some? && NoneIn(timeText(e.period).value, {' '})
    ensures ParseCacheLine(PrintCacheEleIntended(Some(e), destText, timeText))
         == Some((destText(e.dest).value, e.action, if Timed(e.action) then timeText(e.period) else None))
  {
    var pd := destText(e.dest).value;
    var time := if Timed(e.action) then timeText(e.period) else None;
    var tail := ActionTail(e.action, time).value;
    assert PrintCacheEleIntended(Some(e), destText, timeText) == pd + " " + tail + "\n";
    TailNoBlank(e.action, time);
    CacheLineSplit(pd, tail);
    ActionTailRoundTrip(e.action, time);
  }

  /** A rule printed by the code as written reads back with the client and
      server no-cache actions exchanged, and everything else intact: an
      element that ignores the client's no-cache reads back as one that
      ignores the server's, and vice versa. */
  lemma {:induction false} AsWrittenCacheLineRoundTrip<D, H>(e: CacheEle<D, H>, destText: D -> Option<string>,
                                                            timeText: H -> Option<string>)
    requires destText(e.dest).Some? && e.action != UndefinedAction
    requires Timed(e.action) ==> timeText(e.period).Some? && NoneIn(timeText(e.period).value, {' '})
    ensures ParseCacheLine(PrintCacheEle(Some(e), destText, timeText))
         == Some((destText(e.dest).value, SwapLabels(e.action), if Timed(e.action) then timeText(e.period) else None))
  {
    var pd := destText(e.dest).value;
    var time := if Timed(e.action) then timeText(e.period) else None;
    AsWrittenIsSwapped(e.action, time);
    var a := SwapLabels(e.action);
    var tail := ActionTail(a, time).value;
    assert PrintCacheEle(Some(e), destText, timeText) == pd + " " + tail + "\n";
    TailNoBlank(a, time);
    CacheLineSplit(pd, tail);
    ActionTailRoundTrip(a, time);
  }
}

=== FILE: contextmove.dfy ===
/** The rule-reordering test `test_cfg_context_move`: on a context of
    `count` rules it moves the rule at each index 1..count-1 up by one, then
    the rule at each index count-3..0 down by one, and commits only when
    every move succeeded. The first pass carries the top rule to the bottom,
    the second carries the rule that was last (now next to last) to the
    top, so the original first and last rules trade places.

    The context is a `seq` of rules. The engine's move operations are not
    part of this model; the driver is stated for any engine, passed in as
    `step`. `ApplyMove` is a reference engine: `moveUp(i)` swaps the rules
    at `i - 1` and `i`, and `moveDown(i)` swaps those at `i` and `i + 1`.
    This swapping yields the exchange of the two end rules that the test
    promises. Refusing an index without such a neighbour as an `IndexError`
    is this model's own choice. The driver never issues such an index
    (`ScheduleIndicesInRange`), so no driver result depends on it. */
module ContextMove {
  import opened Results

  /** `TSCfgContextMoveEleUp(ctx, index)` and `TSCfgContextMoveEleDown(ctx, index)`. */
  datatype MoveOp = MoveUp(index: int) | MoveDown(index: int)

  /** A move the engine refused; the driver only tells success from failure. */
  datatype MoveError = IndexError

  /** The engine operation: the context after a move, or the move's error. */
  type Engine<!T> = (seq<T>, MoveOp) -> Result<seq<T>, MoveError>

  // ---------------------------------------------------------------------
  // The reference engine
  // ---------------------------------------------------------------------

  /** Exchanges the rules at `i` and `j`; all others keep their place. */
  function Swap<T>(s: seq<T>, i: nat, j: nat): (r: seq<T>)
    requires i < |s| && j < |s|
    ensures |r| == |s| && r[i] == s[j] && r[j] == s[i]
    ensures forall k :: 0 <= k < |s| && k != i && k != j ==> r[k] == s[k]
  {
    s[i := s[j]][j := s[i]]
  }

  /** One move on the reference engine. */
  function ApplyMove<T>(s: seq<T>, op: MoveOp): (r: Result<seq<T>, MoveError>)
    ensures op.MoveUp? ==> (r.Success? <==> 0 < op.index < |s|)
    ensures op.MoveDown? ==> (r.Success? <==> 0 <= op.index < |s| - 1)
    ensures r.Success? ==> |r.value| == |s|
  {
    match op
    case MoveUp(i) => if 0 < i < |s| then Success(Swap(s, i - 1, i)) else Failure(IndexError)
    case MoveDown(i) => if 0 <= i < |s| - 1 then Success(Swap(s, i, i + 1)) else Failure(IndexError)
  }

  /** Moving a rule up and then moving it back down restores the context. */
  lemma MoveUpThenDownRestores<T>(s: seq<T>, i: int)
    requires 0 < i < |s|
    ensures ApplyMove(s, MoveUp(i)).Success?
    ensures ApplyMove(ApplyMove(s, MoveUp(i)).value, MoveDown(i - 1)) == Success(s)
  {
    var t := ApplyMove(s, MoveUp(i)).value;
    assert ApplyMove(t, MoveDown(i - 1)).value == s;
  }

  /** A successful move keeps the same rules, only reordered. */
  lemma MoveKeepsRules<T>(s: seq<T>, op: MoveOp)
    requires ApplyMove(s, op).Success?
    ensures multiset(ApplyMove(s, op).value) == multiset(s)
  {
    var i := if op.MoveUp? then op.index - 1 else op.index;
    var t := s[i := s[i + 1]];
    assert ApplyMove(s, op).value == t[i + 1 := s[i]];
    assert multiset(t) == multiset(s) - multiset{s[i]} + multiset{s[i + 1]};
    assert t[i + 1] == s[i + 1];
  }

  /** Exchanging two neighbours, stated on the pieces of the context. */
  lemma SwapNeighbours<T>(a: seq<T>, x: T, y: T, b: seq<T>)
    ensures Swap(a + [x] + [y] + b, |a|, |a| + 1) == a + [y] + [x] + b
  {
    var s := a + [x] + [y] + b;
    var r := a + [y] + [x] + b;
    assert forall k :: 0 <= k < |s| ==> Swap(s, |a|, |a| + 1)[k] == r[k];
  }

  // ---------------------------------------------------------------------
  // The move schedule
  // ---------------------------------------------------------------------

  /** `MoveUp(lo), ..., MoveUp(hi - 1)`, in ascending order. */
  function Ups(lo: int, hi: int): (r: seq<MoveOp>)
    ensures |r| == if hi <= lo then 0 else hi - lo
    ensures forall k :: 0 <= k < |r| ==> r[k] == MoveUp(lo + k)
    decreases hi - lo
  {
    if hi <= lo then [] else Ups(lo, hi - 1) + [MoveUp(hi - 1)]
  }

  /** `MoveDown(hi), MoveDown(hi - 1), ..., MoveDown(lo)`, in descending order. */
  function Downs(hi: int, lo: int): (r: seq<MoveOp>)
    ensures |r| == if hi < lo then 0 else hi - lo + 1
    ensures forall k :: 0 <= k < |r| ==> r[k] == MoveDown(hi - k)
    decreases hi - lo
  {
    if hi < lo then [] else Downs(hi, lo + 1) + [MoveDown(lo)]
  }

  /** Every move the driver issues on `count` rules when none fails. */
  function Schedule(count: int): (r: seq<MoveOp>)
    ensures count <= 1 ==> r == []
    ensures count >= 2 ==> |r| == 2 * count - 3
  {
    Ups(1, count) + Downs(count - 3, 0)
  }

  /** The schedule only ever names a rule of the context: every move up
      has a rule above it and every move down a rule below it, so on
      `count` rules no move of the schedule is out of range. */
  lemma ScheduleIndicesInRange(count: int)
    ensures forall k :: 0 <= k < |Schedule(count)| && Schedule(count)[k].MoveUp?
                        ==> 1 <= Schedule(count)[k].index <= count - 1
    ensures forall k :: 0 <= k < |Schedule(count)| && Schedule(count)[k].MoveDown?
                        ==> 0 <= Schedule(count)[k].index <= count - 3
  {
    var r := Schedule(count);
    forall k | 0 <= k < |r|
      ensures r[k].MoveUp? ==> 1 <= r[k].index <= count - 1
      ensures r[k].MoveDown? ==> 0 <= r[k].index <= count - 3
    {
      if k < count - 1 {
        assert r[k] == Ups(1, count)[k];
      } else {
        assert r[k] == Downs(count - 3, 0)[k - (count - 1)];
      }
    }
  }

  // ---------------------------------------------------------------------
  // Replaying moves
  // ---------------------------------------------------------------------

  /** Issues `ops` in order, stopping at the first failure. */
  function Replay<T>(s: seq<T>, ops: seq<MoveOp>, step: Engine<T>): Result<seq<T>, MoveError>
    decreases |ops|
  {
    if |ops| == 0 then Success(s)
    else
      match Replay(s, ops[..|ops| - 1], step)
      case Failure(e) => Failure(e)
      case Success(t) => step(t, ops[|ops| - 1])
  }

  /** Replaying one more move. */
  lemma ReplaySnoc<T>(s: seq<T>, ops: seq<MoveOp>, op: MoveOp, step: Engine<T>)
    ensures Replay(s, ops + [op], step)
         == match Replay(s, ops, step)
            case Failure(e) => Failure(e)
            case Success(t) => step(t, op)
  {
    assert (ops + [op])[..|ops|] == ops;
  }

  /** Replaying `a + b` is replaying `a`, then `b` from where `a` left off. */
  lemma {:induction false} ReplayAppend<T>(s: seq<T>, a: seq<MoveOp>, b: seq<MoveOp>, step: Engine<T>)
    ensures Replay(s, a + b, step)
         == match Replay(s, a, step)
            case Failure(e) => Failure(e)
            case Success(t) => Replay(t, b, step)
    decreases |b|
  {
    if |b| == 0 {
      assert a + b == a;
    } else {
      assert (a + b)[..|a + b| - 1] == a + b[..|b| - 1];
      ReplayAppend(s, a, b[..|b| - 1], step);
    }
  }

  /** Once a move fails, no longer run of moves succeeds. */
  lemma {:induction false} FailureIsFinal<T>(s: seq<T>, ops: seq<MoveOp>, n: nat, step: Engine<T>)
    requires n <= |ops| && Replay(s, ops[..n], step).Failure?
    ensures Replay(s, ops, step).Failure?
    decreases |ops| - n
  {
    if n < |ops| {
      assert ops[..n + 1][..n] == ops[..n];
      FailureIsFinal(s, ops, n + 1, step);
    } else {
      assert ops[..n] == ops;
    }
  }

  // ---------------------------------------------------------------------
  // The driver
  // ---------------------------------------------------------------------

  lemma PrefixSnoc<X>(s: seq<X>, n: nat)
    requires n < |s|
    ensures s[..n + 1] == s[..n] + [s[n]]
  {
  }

  /** What the driver did: the moves it issued, in order, the context it
      held when it destroyed it, and whether it committed first. */
  datatype MoveRun<T> = MoveRun(issued: seq<MoveOp>, final: seq<T>, committed: bool)

  /** What an abort leaves: the issued moves are a prefix of the schedule
      whose last move failed, the whole schedule fails too, and the context
      is the one before the failing move. */
  ghost predicate AbortedAt<T>(rules: seq<T>, step: Engine<T>, issued: seq<MoveOp>, ctx: seq<T>) {
    var sched := Schedule(|rules|);
    0 < |issued| <= |sched| && issued == sched[..|issued|]
    && Replay(rules, issued, step).Failure?
    && Replay(rules, issued[..|issued| - 1], step) == Success(ctx)
    && Replay(rules, sched, step).Failure?
  }

  /** The move at position `n` of the schedule fails after the moves before
      it succeeded. */
  lemma Abort<T>(rules: seq<T>, step: Engine<T>, n: nat, ctx: seq<T>)
    requires n < |Schedule(|rules|)|
    requires Replay(rules, Schedule(|rules|)[..n], step) == Success(ctx)
    requires step(ctx, Schedule(|rules|)[n]).Failure?
    ensures AbortedAt(rules, step, Schedule(|rules|)[..n + 1], ctx)
  {
    var sched := Schedule(|rules|);
    var issued := sched[..n + 1];
    assert issued == sched[..n] + [sched[n]];
    ReplaySnoc(rules, sched[..n], sched[n], step);
    assert issued[..n] == sched[..n];
    FailureIsFinal(rules, sched, n + 1, step);
  }

  /** A schedule position whose move succeeded extends the replayed prefix. */
  lemma Advance<T>(rules: seq<T>, step: Engine<T>, n: nat, ctx: seq<T>)
    requires n < |Schedule(|rules|)|
    requires Replay(rules, Schedule(|rules|)[..n], step) == Success(ctx)
    requires step(ctx, Schedule(|rules|)[n]).Success?
    ensures Replay(rules, Schedule(|rules|)[..n + 1], step) == step(ctx, Schedule(|rules|)[n])
  {
    var sched := Schedule(|rules|);
    assert sched[..n + 1] == sched[..n] + [sched[n]];
    ReplaySnoc(rules, sched[..n], sched[n], step);
  }

  /** Where the move up at `i` sits in the schedule. */
  lemma UpAt(count: nat, i: int)
    requires 1 <= i < count
    ensures i - 1 < |Schedule(count)| && Schedule(count)[i - 1] == MoveUp(i)
  {
    assert Schedule(count)[i - 1] == Ups(1, count)[i - 1];
  }

  /** Where the move down at `i` sits in the schedule. */
  lemma DownAt(count: nat, i: int)
    requires 0 <= i <= count - 3
    ensures 2 * count - 4 - i < |Schedule(count)| && Schedule(count)[2 * count - 4 - i] == MoveDown(i)
  {
    assert Schedule(count)[2 * count - 4 - i] == Downs(count - 3, 0)[count - 3 - i];
  }

  /** Issues the move at position `n` of the schedule after the moves
      before it succeeded: on success the issued moves grow by one, on
      failure the run is aborted there. */
  method Issue<T>(rules: seq<T>, step: Engine<T>, ghost n: nat, op: MoveOp, issued: seq<MoveOp>, ctx: seq<T>)
    returns (ok: bool, issued': seq<MoveOp>, ctx': seq<T>)
    requires n < |Schedule(|rules|)| && Schedule(|rules|)[n] == op
    requires issued == Schedule(|rules|)[..n] && Replay(rules, issued, step) == Success(ctx)
    ensures issued' == Schedule(|rules|)[..n + 1]
    ensures ok ==> Replay(rules, issued', step) == Success(ctx')
    ensures !ok ==> AbortedAt(rules, step, issued', ctx')
  {
    PrefixSnoc(Schedule(|rules|), n);
    var res := step(ctx, op);
    if res.Failure? {
      Abort(rules, step, n, ctx);
      return false, issued + [op], ctx;
    }
    Advance(rules, step, n, ctx);
    return true, issued + [op], res.value;
  }

  /** The first pass: moves up at 1..count-1, stopping at the first
      failure. `ok` tells whether every move succeeded. */
  method UpPass<T>(rules: seq<T>, step: Engine<T>) returns (ok: bool, issued: seq<MoveOp>, ctx: seq<T>)
    ensures ok ==> issued == Schedule(|rules|)[..if |rules| >= 1 then |rules| - 1 else 0]
                   && Replay(rules, issued, step) == Success(ctx)
    ensures !ok ==> AbortedAt(rules, step, issued, ctx)
  {
    var count := |rules|;
    ctx := rules;
    issued := [];
    var i := 1;
    while i < count
      invariant 1 <= i <= if count >= 1 then count else 1
      invariant issued == Schedule(count)[..i - 1]
      invariant Replay(rules, issued, step) == Success(ctx)
    {
      UpAt(count, i);
      ok, issued, ctx := Issue(rules, step, i - 1, MoveUp(i), issued, ctx);
      if !ok {
        return;
      }
      i := i + 1;
    }
    ok := true;
  }

  /** The second pass: moves down at count-3..0, continuing the issued
      moves of a successful first pass and stopping at the first failure. */
  method DownPass<T>(rules: seq<T>, step: Engine<T>, upIssued: seq<MoveOp>, upCtx: seq<T>)
    returns (ok: bool, issued: seq<MoveOp>, ctx: seq<T>)
    requires upIssued == Schedule(|rules|)[..if |rules| >= 1 then |rules| - 1 else 0]
    requires Replay(rules, upIssued, step) == Success(upCtx)
    ensures ok ==> issued == Schedule(|rules|) && Replay(rules, issued, step) == Success(ctx)
    ensures !ok ==> AbortedAt(rules, step, issued, ctx)
  {
    var count := |rules|;
    ctx := upCtx;
    issued := upIssued;
    if count < 2 {
      return true, issued, ctx;
    }
    ghost var schedule := Schedule(count);
    assert |schedule| == 2 * count - 3;
    assert issued == schedule[..count - 1];
    var i := count - 3;
    while i >= 0
      invariant -1 <= i <= count - 3
      invariant issued == schedule[..2 * count - 4 - i]
      invariant Replay(rules, issued, step) == Success(ctx)
    {
      ghost var n := 2 * count - 4 - i;
      DownAt(count, i);
      ok, issued, ctx := Issue(rules, step, n, MoveDown(i), issued, ctx);
      assert issued == schedule[..n + 1];
      if !ok {
        return;
      }
      i := i - 1;
    }
    assert schedule[..|schedule|] == schedule;
    ok := true;
  }

  /** `test_cfg_context_move` once the file is chosen and its rules fetched:
      the two passes, then the commit. A failing move jumps straight to
      destroying the context, without a commit. */
  method RunMove<T>(rules: seq<T>, step: Engine<T>) returns (run: MoveRun<T>)
    ensures run.committed <==> Replay(rules, Schedule(|rules|), step).Success?
    ensures run.committed ==> run.issued == Schedule(|rules|)
                              && Replay(rules, Schedule(|rules|), step) == Success(run.final)
    ensures !run.committed ==> AbortedAt(rules, step, run.issued, run.final)
  {
    var ok, issued, ctx := UpPass(rules, step);
    if !ok {
      return MoveRun(issued, ctx, false);
    }
    ok, issued, ctx := DownPass(rules, step, issued, ctx);
    if !ok {
      return MoveRun(issued, ctx, false);
    }
    run := MoveRun(issued, ctx, true);
  }

  // ---------------------------------------------------------------------
  // The schedule on the reference engine
  // ---------------------------------------------------------------------

  /** The context with its first and last rules exchanged. */
  function SwapEnds<T>(s: seq<T>): (r: seq<T>)
    ensures |r| == |s|
    ensures |s| >= 2 ==> r[0] == s[|s| - 1] && r[|s| - 1] == s[0]
    ensures forall k :: 0 < k < |s| - 1 ==> r[k] == s[k]
    ensures |s| < 2 ==> r == s
  {
    if |s| < 2 then s else [s[|s| - 1]] + s[1..|s| - 1] + [s[0]]
  }

  /** The context during the first pass: the top rule has been carried up
      to `i - 1`. */
  function Lifted<T>(s: seq<T>, i: int): seq<T>
    requires 1 <= i <= |s|
  {
    s[1..i] + [s[0]] + s[i..]
  }

  /** One move up carries the top rule one place further. */
  lemma UpStep<T>(s: seq<T>, i: int)
    requires 1 < i <= |s|
    ensures ApplyMove(Lifted(s, i - 1), MoveUp(i - 1)) == Success(Lifted(s, i))
  {
    var a := s[1..i - 1];
    var z := Lifted(s, i - 1);
    assert z == a + [s[0]] + [s[i - 1]] + s[i..] by {
      assert s[i - 1..] == [s[i - 1]] + s[i..];
    }
    SwapNeighbours(a, s[0], s[i - 1], s[i..]);
    assert a + [s[i - 1]] == s[1..i];
  }

  /** After the moves up at 1..i-1 the original top rule sits at `i - 1`,
      with the rules it passed shifted up by one. */
  lemma {:induction false} UpsPhase<T>(s: seq<T>, i: int)
    requires 1 <= i <= |s|
    ensures Replay(s, Ups(1, i), ApplyMove) == Success(Lifted(s, i))
    decreases i
  {
    if i == 1 {
      assert s[1..1] + [s[0]] + s[1..] == s;
    } else {
      UpsPhase(s, i - 1);
      assert Ups(1, i) == Ups(1, i - 1) + [MoveUp(i - 1)];
      ReplaySnoc(s, Ups(1, i - 1), MoveUp(i - 1), ApplyMove);
      UpStep(s, i);
    }
  }

  /** The context during the second pass: the rule that stood at `n - 2`
      has been carried down to `j`. */
  function Carried<T>(x: seq<T>, j: int): seq<T>
    requires |x| >= 2 && 0 <= j <= |x| - 2
  {
    x[..j] + [x[|x| - 2]] + x[j..|x| - 2] + [x[|x| - 1]]
  }

  /** One move down carries the rule one place further. */
  lemma DownStep<T>(x: seq<T>, j: int)
    requires |x| >= 2 && 0 <= j < |x| - 2
    ensures ApplyMove(Carried(x, j + 1), MoveDown(j)) == Success(Carried(x, j))
  {
    var n := |x|;
    var a := x[..j];
    var b := x[j + 1..n - 2] + [x[n - 1]];
    assert Carried(x, j + 1) == a + [x[j]] + [x[n - 2]] + b by {
      assert x[..j + 1] == a + [x[j]];
    }
    SwapNeighbours(a, x[j], x[n - 2], b);
    assert a + [x[n - 2]] + [x[j]] + b == Carried(x, j) by {
      assert x[j..n - 2] == [x[j]] + x[j + 1..n - 2];
    }
  }

  /** Before the second pass nothing has been carried. */
  lemma CarriedNowhere<T>(x: seq<T>)
    requires |x| >= 2
    ensures Carried(x, |x| - 2) == x
  {
    var n := |x|;
    assert x[..n - 2] + [x[n - 2]] + x[n - 2..n - 2] + [x[n - 1]] == x;
  }

  lemma DownsSnoc(hi: int, lo: int)
    requires lo <= hi
    ensures Downs(hi, lo) == Downs(hi, lo + 1) + [MoveDown(lo)]
  {
  }

  /** After the moves down at n-3..j the rule that stood at `n - 2` sits
      at `j`, with the rules it passed shifted down by one. */
  lemma {:induction false} DownsPhase<T>(x: seq<T>, j: int)
    requires |x| >= 2 && 0 <= j <= |x| - 2
    ensures Replay(x, Downs(|x| - 3, j), ApplyMove) == Success(Carried(x, j))
    decreases |x| - j
  {
    var n := |x|;
    if j == n - 2 {
      assert Downs(n - 3, j) == [];
      CarriedNowhere(x);
    } else {
      DownsPhase(x, j + 1);
      DownsSnoc(n - 3, j);
      ReplaySnoc(x, Downs(n - 3, j + 1), MoveDown(j), ApplyMove);
      DownStep(x, j);
    }
  }

  /** Carrying the rule at `n - 2` of the rotated context down to the top
      leaves the original rules with their ends exchanged. */
  lemma CarriedSwapsEnds<T>(s: seq<T>)
    requires |s| >= 2
    ensures Carried(s[1..] + [s[0]], 0) == SwapEnds(s)
  {
    var x := s[1..] + [s[0]];
    var n := |s|;
    assert x[n - 2] == s[n - 1] && x[n - 1] == s[0];
    assert x[0..n - 2] == s[1..n - 1];
  }

  /** On the reference engine the schedule succeeds and exchanges the first
      and last rules, leaving the middle rules in their original order. */
  lemma {:induction false} ScheduleSwapsEnds<T>(s: seq<T>)
    ensures Replay(s, Schedule(|s|), ApplyMove) == Success(SwapEnds(s))
  {
    var n := |s|;
    if n < 2 {
      assert Schedule(n) == [];
    } else {
      ReplayAppend(s, Ups(1, n), Downs(n - 3, 0), ApplyMove);
      UpsPhase(s, n);
      var x := s[1..n] + [s[0]] + s[n..];
      assert x == s[1..] + [s[0]];
      DownsPhase(x, 0);
      CarriedSwapsEnds(s);
    }
  }

  /** The driver on the reference engine always commits, and commits the
      context with its first and last rules exchanged. */
  method MoveWithReferenceEngine<T>(rules: seq<T>) returns (run: MoveRun<T>)
    ensures run.committed
    ensures run.final == SwapEnds(rules)
    ensures run.issued == Schedule(|rules|)
  {
    run := RunMove(rules, ApplyMove);
    ScheduleSwapsEnds(rules);
  }
}

=== FILE: dispatch.dfy ===
/** The command loop of the interactive test client (`runInteractive`):
    every line read at the prompt is classified by a fixed chain of tests,
    and the first test that passes picks the command. A bare newline is
    ignored, `quit` or `exit` in any letter case ends the loop, and a line no
    test accepts runs the synchronous test. Most tests look for the keyword
    anywhere in the line (`strstr`); `start` and `register` must begin it
    (`strncmp`). The line keeps the newline it was read with. */
module Dispatch {
  import opened Results
  import opened Text

  /** What a line selects among the tests of the chain. */
  datatype Action =
    | ProxyState
    | StartProxy
    | StopProxy
    | Restart
    | Reconfigure
    | Records
    | ErrorRecords
    | RecordGetMlt
    | RecordSetMlt
    | ReadFile
    | WriteFile
    | RecordGet
    | ActiveEvents
    | ResolveAlarm
    | RegisterCallback
    | UnregisterCallback
    | Snapshots
    | TakeSnapshot
    | RemoveSnapshot
    | RestoreSnapshot
    | ReadUrl
    | TestUrl
    | CfgGet
    | CfgMove
    | CfgSocks
    | CfgPlugin
    | ResetStats
    | SetStats
    | PrintStats

  /** The outcome for one line: skip it, leave the loop, run the action of
      the first test that passes, or run the synchronous test. */
  datatype Command = Skip | Quit | Run(action: Action) | SyncTest

  /** `strcasecmp("quit\n", line) == 0 || strcasecmp("exit\n", line) == 0`. */
  predicate IsQuit(line: string) {
    EqualsIgnoringCase("quit\n", line) || EqualsIgnoringCase("exit\n", line)
  }

  /** A test on the line: the keyword anywhere (`strstr`), or the keyword
      first (`strncmp` over the keyword's length). */
  datatype Test = Anywhere(keyword: string) | AtStart(keyword: string)

  predicate Passes(t: Test, line: string) {
    match t
    case Anywhere(k) => Contains(line, k)
    case AtStart(k) => IsPrefix(k, line)
  }

  /** The test `runInteractive` applies for each action. */
  function TestOf(a: Action): Test {
    match a
    case ProxyState => Anywhere("state")
    case StartProxy => AtStart("start")
    case StopProxy => Anywhere("stop")
    case Restart => Anywhere("restart")
    case Reconfigure => Anywhere("reconfig")
    case Records => Anywhere("records")
    case ErrorRecords => Anywhere("err_recs")
    case RecordGetMlt => Anywhere("get_mlt")
    case RecordSetMlt => Anywhere("set_mlt")
    case ReadFile => Anywhere("read_file")
    case WriteFile => Anywhere("write_file")
    case RecordGet => Anywhere("proxy.")
    case ActiveEvents => Anywhere("active_events")
    case ResolveAlarm => Anywhere("MGMT_ALARM_")
    case RegisterCallback => AtStart("register")
    case UnregisterCallback => Anywhere("unregister")
    case Snapshots => Anywhere("snapshots")
    case TakeSnapshot => Anywhere("take_snap")
    case RemoveSnapshot => Anywhere("remove_snap")
    case RestoreSnapshot => Anywhere("restore_snap")
    case ReadUrl => Anywhere("read_url")
    case TestUrl => Anywhere("test_url")
    case CfgGet => Anywhere("cfg_get:")
    case CfgMove => Anywhere("cfg:")
    case CfgSocks => Anywhere("cfg_socks")
    case CfgPlugin => Anywhere("cfg_plugin")
    case ResetStats => Anywhere("reset_stats")
    case SetStats => Anywhere("set_stats")
    case PrintStats => Anywhere("print_stats")
  }

  /** The number of tests in the chain. */
  const ChainLength := 29

  /** The action whose test comes at position `k` of the chain. */
  function ActionAt(k: nat): Action
    requires k < ChainLength
  {
    if k == 0 then ProxyState
    else if k == 1 then StartProxy
    else if k == 2 then StopProxy
    else if k == 3 then Restart
    else if k == 4 then Reconfigure
    else if k == 5 then Records
    else if k == 6 then ErrorRecords
    else if k == 7 then RecordGetMlt
    else if k == 8 then RecordSetMlt
    else if k == 9 then ReadFile
    else if k == 10 then WriteFile
    else if k == 11 then RecordGet
    else if k == 12 then ActiveEvents
    else if k == 13 then ResolveAlarm
    else if k == 14 then RegisterCallback
    else if k == 15 then UnregisterCallback
    else if k == 16 then Snapshots
    else if k == 17 then TakeSnapshot
    else if k == 18 then RemoveSnapshot
    else if k == 19 then RestoreSnapshot
    else if k == 20 then ReadUrl
    else if k == 21 then TestUrl
    else if k == 22 then CfgGet
    else if k == 23 then CfgMove
    else if k == 24 then CfgSocks
    else if k == 25 then CfgPlugin
    else if k == 26 then ResetStats
    else if k == 27 then SetStats
    else PrintStats
  }

  /** The test at position `k` of the chain. */
  function TestAt(k: nat): Test
    requires k < ChainLength
  {
    TestOf(ActionAt(k))
  }

  /** The position of each action's test in the chain. */
  function Position(a: Action): nat {
    match a
    case ProxyState => 0
    case StartProxy => 1
    case StopProxy => 2
    case Restart => 3
    case Reconfigure => 4
    case Records => 5
    case ErrorRecords => 6
    case RecordGetMlt => 7
    case RecordSetMlt => 8
    case ReadFile => 9
    case WriteFile => 10
    case RecordGet => 11
    case ActiveEvents => 12
    case ResolveAlarm => 13
    case RegisterCallback => 14
    case UnregisterCallback => 15
    case Snapshots => 16
    case TakeSnapshot => 17
    case RemoveSnapshot => 18
    case RestoreSnapshot => 19
    case ReadUrl => 20
    case TestUrl => 21
    case CfgGet => 22
    case CfgMove => 23
    case CfgSocks => 24
    case CfgPlugin => 25
    case ResetStats => 26
    case SetStats => 27
    case PrintStats => 28
  }

  /** Positions and actions correspond one to one. */
  lemma PositionOfActionAt(k: nat)
    requires k < ChainLength
    ensures Position(ActionAt(k)) == k
  {
  }

  lemma ActionAtPosition(a: Action)
    ensures Position(a) < ChainLength && ActionAt(Position(a)) == a
  {
  }

  /** Whether the line passes each test of the chain, in chain order. */
  function Verdicts(line: string): (v: seq<bool>)
    ensures |v| == ChainLength
    ensures forall j :: 0 <= j < ChainLength ==> v[j] == Passes(TestAt(j), line)
  {
    seq(ChainLength, j requires 0 <= j < ChainLength => Passes(TestAt(j), line))
  }

  /** The position of the first verdict from `n` on that holds, or the
      number of verdicts when none does. */
  function FirstHolding(v: seq<bool>, n: nat): (i: nat)
    requires n <= |v|
    ensures n <= i <= |v|
    ensures i < |v| ==> v[i]
    decreases |v| - n
  {
    if n == |v| || v[n] then n else FirstHolding(v, n + 1)
  }

  /** The `if ... else if` chain of `runInteractive`: the action of the
      first test the line passes, or the synchronous test when it passes
      none. */
  function Chain(line: string): (c: Command)
    ensures c.Run? || c == SyncTest
    ensures c.Run? ==> Passes(TestOf(c.action), line)
  {
    var i := FirstHolding(Verdicts(line), 0);
    if i == ChainLength then SyncTest else Run(ActionAt(i))
  }

  /** The command `runInteractive` runs for one line. */
  function Dispatch(line: string): (c: Command)
    ensures c == Skip <==> line == "\n"
    ensures c == Quit <==> line != "\n" && IsQuit(line)
  {
    if line == "\n" then Skip
    else if IsQuit(line) then Quit
    else Chain(line)
  }

  // ---------------------------------------------------------------------
  // The order of the tests
  // ---------------------------------------------------------------------

  /** The first verdict from `n` on that holds is at `k` exactly when the
      verdict at `k` holds and none between `n` and `k` does. */
  lemma {:induction false} FirstHoldingAt(v: seq<bool>, n: nat, k: nat)
    requires n <= k < |v|
    ensures FirstHolding(v, n) == k <==> v[k] && forall j :: n <= j < k ==> !v[j]
    decreases k - n
  {
    if n < k && !v[n] {
      FirstHoldingAt(v, n + 1, k);
    }
  }

  /** No verdict from `n` on holds exactly when the search runs off the end. */
  lemma {:induction false} NoneHolding(v: seq<bool>, n: nat)
    requires n <= |v|
    ensures FirstHolding(v, n) == |v| <==> forall j :: n <= j < |v| ==> !v[j]
    decreases |v| - n
  {
    if n < |v| && !v[n] {
      NoneHolding(v, n + 1);
    }
  }

  /** The first test that passes wins: a line that is neither blank nor a
      quit command runs the action of test `k` exactly when it passes that
      test and none before it. */
  lemma FirstPassingTestWins(line: string, k: nat)
    requires k < ChainLength && line != "\n" && !IsQuit(line)
    ensures Dispatch(line) == Run(ActionAt(k))
        <==> Passes(TestAt(k), line) && forall j :: 0 <= j < k ==> !Passes(TestAt(j), line)
  {
    var v := Verdicts(line);
    FirstHoldingAt(v, 0, k);
    var i := FirstHolding(v, 0);
    PositionOfActionAt(k);
    if i < ChainLength {
      PositionOfActionAt(i);
    }
  }

  /** A line runs the synchronous test exactly when it is neither blank nor
      a quit command and passes no test of the chain. */
  lemma FallbackWhenNothingMatches(line: string)
    ensures Dispatch(line) == SyncTest
        <==> line != "\n" && !IsQuit(line) && forall j :: 0 <= j < ChainLength ==> !Passes(TestAt(j), line)
  {
    NoneHolding(Verdicts(line), 0);
  }

  // ---------------------------------------------------------------------
  // Particular lines
  // ---------------------------------------------------------------------

  /** A keyword holding a character the line lacks cannot occur in it. */
  lemma AbsentCharacter(s: string, p: string, k: nat)
    requires k < |p| && NoneIn(s, {p[k]})
    ensures !Contains(s, p)
  {
    ContainsAt(s, p);
    forall i | 0 <= i <= |s|
      ensures !IsPrefix(p, s[i..])
    {
      if |p| <= |s[i..]| {
        assert s[i..][k] == s[i + k];
        assert s[i + k] != p[k];
      }
    }
  }

  /** A keyword holding a character outside the line's alphabet cannot
      occur in it. */
  lemma OutsideAlphabet(s: string, alphabet: set<char>, p: string, k: nat)
    requires forall i :: 0 <= i < |s| ==> s[i] in alphabet
    requires k < |p| && p[k] !in alphabet
    ensures !Contains(s, p)
  {
    AbsentCharacter(s, p, k);
  }

  /** The letters of `unregister\n`. */
  const UnregisterAlphabet: set<char> := {'u', 'n', 'r', 'e', 'g', 'i', 's', 't', '\n'}

  lemma UnregisterSpelling(line: string)
    requires line == "unregister\n"
    ensures forall i :: 0 <= i < |line| ==> line[i] in UnregisterAlphabet
    ensures line[0] == 'u'
  {
  }

  /** `unregister\n` passes none of the fifteen tests before its own:
      each keyword holds a letter the line lacks, and `start` and
      `register` must begin the line. */
  lemma UnregisterPassesNoEarlierTest(line: string, j: nat)
    requires line == "unregister\n" && j < Position(UnregisterCallback)
    ensures !Passes(TestAt(j), line)
  {
    UnregisterSpelling(line);
    if j < 8 {
      UnregisterPassesFirstEight(line, j);
    } else {
      UnregisterPassesLastSeven(line, j);
    }
  }

  lemma UnregisterPassesFirstEight(line: string, j: nat)
    requires forall i :: 0 <= i < |line| ==> line[i] in UnregisterAlphabet
    requires |line| > 0 && line[0] == 'u' && j < 8
    ensures !Passes(TestAt(j), line)
  {
    var a := UnregisterAlphabet;
    if j == 0 {
      OutsideAlphabet(line, a, "state", 2);
    } else if j == 1 {
      assert line[0] != "start"[0];
    } else if j == 2 {
      OutsideAlphabet(line, a, "stop", 2);
    } else if j == 3 {
      OutsideAlphabet(line, a, "restart", 4);
    } else if j == 4 {
      OutsideAlphabet(line, a, "reconfig", 2);
    } else if j == 5 {
      OutsideAlphabet(line, a, "records", 2);
    } else if j == 6 {
      OutsideAlphabet(line, a, "err_recs", 3);
    } else {
      OutsideAlphabet(line, a, "get_mlt", 3);
    }
  }

  lemma UnregisterPassesLastSeven(line: string, j: nat)
    requires forall i :: 0 <= i < |line| ==> line[i] in UnregisterAlphabet
    requires |line| > 0 && line[0] == 'u' && 8 <= j < 15
    ensures !Passes(TestAt(j), line)
  {
    var a := UnregisterAlphabet;
    if j == 8 {
      OutsideAlphabet(line, a, "set_mlt", 3);
    } else if j == 9 {
      OutsideAlphabet(line, a, "read_file", 2);
    } else if j == 10 {
      OutsideAlphabet(line, a, "write_file", 0);
    } else if j == 11 {
      OutsideAlphabet(line, a, "proxy.", 0);
    } else if j == 12 {
      OutsideAlphabet(line, a, "active_events", 0);
    } else if j == 13 {
      OutsideAlphabet(line, a, "MGMT_ALARM_", 0);
    } else {
      assert line[0] != "register"[0];
    }
  }

  /** `unregister` reaches its own branch: `register` is checked before it
      but only at the start of the line. */
  lemma UnregisterReachesItsBranch(line: string)
    requires line == "unregister\n"
    ensures Dispatch(line) == Run(UnregisterCallback)
  {
    assert !IsQuit(line);
    forall j | 0 <= j < Position(UnregisterCallback)
      ensures !Passes(TestAt(j), line)
    {
      UnregisterPassesNoEarlierTest(line, j);
    }
    assert IsPrefix("unregister", line);
    FirstPassingTestWins(line, Position(UnregisterCallback));
  }

  /** `restart` holds `sta` but not `state`. */
  lemma StateNotInRestart(line: string)
    requires line == "restart\n"
    ensures !Contains(line, "state")
  {
    ContainsAt(line, "state");
    forall i | 0 <= i <= |line|
      ensures !IsPrefix("state", line[i..])
    {
      if i + 5 <= |line| {
        if line[i] == 's' {
          assert i == 2;
          assert line[i..][4] == 't';
        }
      }
    }
  }

  /** `restart` is not taken for `start`, which must begin the line, and
      holds neither `state` nor `stop`. */
  lemma RestartReachesItsBranch(line: string)
    requires line == "restart\n"
    ensures Dispatch(line) == Run(Restart)
  {
    assert !IsQuit(line);
    StateNotInRestart(line);
    assert line[0] != 's';
    assert NoneIn(line, {'o'});
    AbsentCharacter(line, "stop", 2);
    forall j | 0 <= j < Position(Restart)
      ensures !Passes(TestAt(j), line)
    {
    }
    assert IsPrefix("restart", line);
    FirstPassingTestWins(line, Position(Restart));
  }

  /** Quitting ignores letter case, and a bare newline is skipped. */
  lemma QuitIgnoresCase()
    ensures Dispatch("QUIT\n") == Quit
    ensures Dispatch("Exit\n") == Quit
    ensures Dispatch("\n") == Skip
  {
    assert EqualsIgnoringCase("quit\n", "QUIT\n");
    assert EqualsIgnoringCase("exit\n", "Exit\n");
  }

  /** Any line holding `state` shows the proxy state, whatever else it
      holds (a record name, a file name), since that test comes first. */
  lemma StateShadowsEverything(line: string)
    requires line != "\n" && !IsQuit(line) && Contains(line, "state")
    ensures Dispatch(line) == Run(ProxyState)
  {
    assert TestAt(0) == Anywhere("state");
  }

  // ---------------------------------------------------------------------
  // start_TS
  // ---------------------------------------------------------------------

  /** `TSCacheClearT`: what to clear when the proxy starts. */
  datatype CacheClear = ClearNone | ClearCache | ClearHostDb

  /** The argument of `start:<arg>` as `start_TS` reads it: the second token
      at colons, compared with the newline still on it. A missing or
      unknown argument clears nothing. */
  function StartClear(line: string): (r: CacheClear)
    ensures r != ClearNone ==> NthToken(line, {':'}, 1).Some?
  {
    match NthToken(line, {':'}, 1)
    case None => ClearNone
    case Some(arg) =>
      if arg == "all\n" then ClearCache
      else if arg == "hostdb\n" then ClearHostDb
      else ClearNone
  }

  /** The line a user types to start the proxy with a given clearing. */
  function StartLine(c: CacheClear): string {
    match c
    case ClearNone => "start\n"
    case ClearCache => "start:all\n"
    case ClearHostDb => "start:hostdb\n"
  }

  /** A line that begins with `start` and does not hold `state` reaches
      `start_TS`. */
  lemma StartPrefixReachesStart(line: string)
    requires IsPrefix("start", line) && !Contains(line, "state")
    ensures Dispatch(line) == Run(StartProxy)
  {
    assert line[0] == 's';
    assert Lower(line[0]) != Lower("quit\n"[0]) && Lower(line[0]) != Lower("exit\n"[0]);
    assert !IsQuit(line);
    FirstPassingTestWins(line, 1);
  }

  /** Each start line reaches `start_TS`. */
  lemma StartLineDispatched(c: CacheClear)
    ensures Dispatch(StartLine(c)) == Run(StartProxy)
  {
    var line := StartLine(c);
    assert line == "start" + line[5..];
    assert NoneIn(line, {'e'});
    AbsentCharacter(line, "state", 4);
    StartPrefixReachesStart(line);
  }

  /** `start_TS` reads back from each start line the clearing it asks for. */
  lemma StartLineRoundTrip(c: CacheClear)
    ensures StartClear(StartLine(c)) == c
  {
    match c
    case ClearNone =>
      assert NoneIn("start\n", {':'});
      TokensLastWord("start\n", {':'});
    case ClearCache =>
      StartClearOfArgument("all\n");
      assert "start:" + "all\n" == "start:all\n";
    case ClearHostDb =>
      StartClearOfArgument("hostdb\n");
      assert "start:" + "hostdb\n" == "start:hostdb\n";
  }

  /** For every argument typed after `start:`, the clearing is chosen by
      comparing the whole argument, newline included, with `all\n` and
      `hostdb\n`; anything else clears nothing. */
  lemma StartClearOfArgument(arg: string)
    requires |arg| > 0 && NoneIn(arg, {':'})
    ensures StartClear("start:" + arg) ==
      (if arg == "all\n" then ClearCache else if arg == "hostdb\n" then ClearHostDb else ClearNone)
  {
    StartArgument(arg);
  }

  /** The second colon token of `start:<arg>` is the argument. */
  lemma StartArgument(arg: string)
    requires |arg| > 0 && NoneIn(arg, {':'})
    ensures NthToken("start:" + arg, {':'}, 1) == Some(arg)
  {
    assert "start:" + arg == "start" + [':'] + arg;
    assert NoneIn("start", {':'});
    TokensWord("start", ':', arg, {':'});
    TokensLastWord(arg, {':'});
  }

  // ---------------------------------------------------------------------
  // The prompt loop
  // ---------------------------------------------------------------------

  /** The commands run for the lines typed, up to the first quit; blank
      lines run nothing, and the end of input ends the loop too. */
  function Session(lines: seq<string>): (r: seq<Command>)
    ensures forall k :: 0 <= k < |r| ==> r[k] != Skip && r[k] != Quit
    ensures |r| <= |lines|
    decreases |lines|
  {
    if |lines| == 0 then []
    else
      match Dispatch(lines[0])
      case Skip => Session(lines[1..])
      case Quit => []
      case c => [c] + Session(lines[1..])
  }

  /** Nothing typed after a quit is run. */
  lemma {:induction false} SessionStopsAtQuit(before: seq<string>, q: string, after: seq<string>)
    requires forall k :: 0 <= k < |before| ==> Dispatch(before[k]) != Quit
    requires Dispatch(q) == Quit
    ensures Session(before + [q] + after) == Session(before)
    decreases |before|
  {
    var lines := before + [q] + after;
    if |before| == 0 {
      assert lines[0] == q;
    } else {
      assert lines[0] == before[0];
      assert lines[1..] == before[1..] + [q] + after;
      SessionStopsAtQuit(before[1..], q, after);
    }
  }

  /** `runInteractive` over the lines typed at the prompt, until a quit
      command or the end of input. Returns the commands run, in order. */
  method RunInteractive(lines: seq<string>) returns (run: seq<Command>)
    ensures run == Session(lines)
  {
    run := [];
    var i := 0;
    while i < |lines|
      invariant 0 <= i <= |lines|
      invariant run + Session(lines[i..]) == Session(lines)
    {
      var c := Dispatch(lines[i]);
      assert lines[i..][0] == lines[i] && lines[i..][1..] == lines[i + 1..];
      if c == Quit {
        assert run + [] == run;
        return;
      }
      if c != Skip {
        run := run + [c];
      }
      i := i + 1;
    }
    assert run + [] == run;
  }
}

=== FILE: fifo.dfy ===
/** The FIFO list containers of the management API (`TSIntList`,
    `TSStringList`, `TSPortList`, `TSDomainList`, `TSIpAddrList`, `TSList`)
    and the printing helpers that walk them without a cursor: each helper
    takes the length, then dequeues the front element, prints it and
    enqueues it at the back, once per element. A list is a `seq` whose
    first element is the front of the queue. */
module Fifo {
  import opened Results
  import opened Text
  import IpAddr

  // ---------------------------------------------------------------------
  // The queue operations
  // ---------------------------------------------------------------------

  /** `TS*ListDequeue`: the front element and what remains; `None` on an
      empty list. */
  function Dequeue<T>(q: seq<T>): (r: Option<(T, seq<T>)>)
    ensures r.None? <==> |q| == 0
    ensures r.Some? ==> [r.value.0] + r.value.1 == q
  {
    if |q| == 0 then None else Some((q[0], q[1..]))
  }

  /** `TS*ListEnqueue`: the element joins at the back. */
  function Enqueue<T>(q: seq<T>, x: T): (r: seq<T>)
    ensures |r| == |q| + 1 && r[..|q|] == q && r[|q|] == x
  {
    q + [x]
  }

  /** One dequeue-then-enqueue step; an empty list is left alone. */
  function Cycle<T>(q: seq<T>): seq<T> {
    match Dequeue(q)
    case None => q
    case Some(p) => Enqueue(p.1, p.0)
  }

  /** `n` successive steps. */
  function CycleN<T>(q: seq<T>, n: nat): seq<T>
    decreases n
  {
    if n == 0 then q else Cycle(CycleN(q, n - 1))
  }

  /** After `n` steps, the first `n` elements have moved, in order, to the
      back. */
  lemma {:induction false} CycleNRotates<T>(q: seq<T>, n: nat)
    requires n <= |q|
    ensures CycleN(q, n) == q[n..] + q[..n]
    decreases n
  {
    if n == 0 {
      assert q[0..] == q;
    } else {
      CycleNRotates(q, n - 1);
      RotateOneMore(q, n);
    }
  }

  /** One more step moves the element at `n - 1` to the back. */
  lemma RotateOneMore<T>(q: seq<T>, n: nat)
    requires 0 < n <= |q|
    ensures Cycle(q[n - 1..] + q[..n - 1]) == q[n..] + q[..n]
  {
    var r := q[n - 1..] + q[..n - 1];
    assert r[0] == q[n - 1];
    assert r[1..] == q[n..] + q[..n - 1];
    assert q[..n] == q[..n - 1] + [q[n - 1]];
  }

  /** Step `i` of a traversal dequeues the element at `i` and leaves the
      list rotated one place further. */
  lemma CycleStep<T>(q: seq<T>, i: nat)
    requires i < |q|
    ensures Dequeue(CycleN(q, i)).Some? && Dequeue(CycleN(q, i)).value.0 == q[i]
    ensures Enqueue(Dequeue(CycleN(q, i)).value.1, q[i]) == CycleN(q, i + 1)
  {
    CycleNRotates(q, i);
  }

  /** As many steps as the list is long give back the list itself: contents,
      order and length. */
  lemma CycleLengthRestores<T>(q: seq<T>)
    ensures CycleN(q, |q|) == q
  {
    CycleNRotates(q, |q|);
    assert q[|q|..] + q[..|q|] == q;
  }

  /** The texts of `xs` written one after another, front first. */
  function ConcatMap<T>(render: T -> string, xs: seq<T>): string
    decreases |xs|
  {
    if |xs| == 0 then "" else ConcatMap(render, xs[..|xs| - 1]) + render(xs[|xs| - 1])
  }

  lemma {:induction false} ConcatMapAppend<T>(render: T -> string, a: seq<T>, b: seq<T>)
    ensures ConcatMap(render, a + b) == ConcatMap(render, a) + ConcatMap(render, b)
    decreases |b|
  {
    if |b| == 0 {
      assert a + b == a;
    } else {
      assert (a + b)[..|a + b| - 1] == a + b[..|b| - 1];
      ConcatMapAppend(render, a, b[..|b| - 1]);
    }
  }

  /** The text of a list is the front element's text, then the rest's. */
  lemma {:induction false} ConcatMapFront<T>(render: T -> string, xs: seq<T>)
    requires |xs| > 0
    ensures ConcatMap(render, xs) == render(xs[0]) + ConcatMap(render, xs[1..])
    decreases |xs|
  {
    if |xs| > 1 {
      var init := xs[..|xs| - 1];
      ConcatMapFront(render, init);
      assert init[1..] == xs[1..][..|xs[1..]| - 1];
    } else {
      assert xs[..0] == [];
      assert xs[1..] == [];
    }
  }

  /** The text of one more element of a prefix. */
  lemma ConcatMapPrefix<T>(render: T -> string, xs: seq<T>, i: nat)
    requires i < |xs|
    ensures ConcatMap(render, xs[..i + 1]) == ConcatMap(render, xs[..i]) + render(xs[i])
  {
    assert xs[..i + 1][..i] == xs[..i];
  }

  lemma ConcatMapSingle<T>(render: T -> string, x: T)
    ensures ConcatMap(render, [x]) == render(x)
  {
    assert [x][..0] == [];
  }

  /** The traversal every `print_*_list` helper performs: `Len` steps of
      dequeue, print, enqueue. It returns the list as it stands afterwards,
      the elements in the order they were dequeued, and the text printed. */
  method Traverse<T>(list: seq<T>, render: T -> string) returns (after: seq<T>, visited: seq<T>, out: string)
    ensures after == list
    ensures visited == list
    ensures out == ConcatMap(render, list)
  {
    var count := |list|;
    after := list;
    visited := [];
    out := "";
    var i := 0;
    while i < count
      invariant 0 <= i <= count
      invariant after == CycleN(list, i)
      invariant visited == list[..i]
      invariant out == ConcatMap(render, list[..i])
    {
      CycleStep(list, i);
      ConcatMapPrefix(render, list, i);
      var front := Dequeue(after).value;
      after := Enqueue(front.1, front.0);
      visited := visited + [front.0];
      out := out + render(front.0);
      assert list[..i + 1] == list[..i] + [list[i]];
      i := i + 1;
    }
    CycleLengthRestores(list);
    assert list[..count] == list;
  }

  // ---------------------------------------------------------------------
  // Separator-terminated fields and their tokenising reader
  // ---------------------------------------------------------------------

  /** The texts of `xs`, one per element. */
  function Words<T>(word: T -> string, xs: seq<T>): (r: seq<string>)
    ensures |r| == |xs| && forall k :: 0 <= k < |xs| ==> r[k] == word(xs[k])
  {
    seq(|xs|, k requires 0 <= k < |xs| => word(xs[k]))
  }

  lemma WordsFront<T>(word: T -> string, xs: seq<T>)
    requires |xs| > 0
    ensures Words(word, xs) == [word(xs[0])] + Words(word, xs[1..])
  {
  }

  /** Fields each closed by the separator `d` are exactly the tokens
      `strtok` finds, provided no field is empty or holds `d`. */
  lemma {:induction false} TokensOfTerminated<T>(render: T -> string, word: T -> string, d: char, xs: seq<T>)
    requires forall x :: render(x) == word(x) + [d]
    requires forall k :: 0 <= k < |xs| ==> |word(xs[k])| > 0 && NoneIn(word(xs[k]), {d})
    ensures Tokens(ConcatMap(render, xs), {d}) == Words(word, xs)
    decreases |xs|
  {
    if |xs| == 0 {
    } else {
      ConcatMapFront(render, xs);
      TokensOfTerminated(render, word, d, xs[1..]);
      TokensWord(word(xs[0]), d, ConcatMap(render, xs[1..]), {d});
      WordsFront(word, xs);
    }
  }

  /** Reads every token as a `%d` number. */
  function ParseInts(ts: seq<string>): (r: Option<seq<int>>)
    ensures r.Some? ==> |r.value| == |ts|
    decreases |ts|
  {
    if |ts| == 0 then Some([])
    else
      match (ParseInt(ts[0]), ParseInts(ts[1..]))
      case (Some(x), Some(rest)) => Some([x] + rest)
      case _ => None
  }

  lemma {:induction false} ParseIntsWords(xs: seq<int>)
    ensures ParseInts(Words(IntText, xs)) == Some(xs)
    decreases |xs|
  {
    if |xs| > 0 {
      IntTextRoundTrip(xs[0]);
      ParseIntsWords(xs[1..]);
      assert Words(IntText, xs)[1..] == Words(IntText, xs[1..]);
      assert xs == [xs[0]] + xs[1..];
    }
  }

  /** Takes a line apart into the text between `head` and `tail`. */
  function Between(head: string, tail: string, t: string): (r: Option<string>)
    ensures r.Some? ==> t == head + r.value + tail
  {
    if |t| >= |head| + |tail| && t[..|head|] == head && t[|t| - |tail|..] == tail
    then
      assert t == t[..|head|] + t[|head|..|t| - |tail|] + t[|t| - |tail|..];
      Some(t[|head|..|t| - |tail|])
    else None
  }

  lemma BetweenOf(head: string, mid: string, tail: string)
    ensures Between(head, tail, head + mid + tail) == Some(mid)
  {
    var t := head + mid + tail;
    assert t[..|head|] == head;
    assert t[|t| - |tail|..] == tail;
    assert t[|head|..|t| - |tail|] == mid;
  }

  // ---------------------------------------------------------------------
  // print_int_list
  // ---------------------------------------------------------------------

  /** One element of an integer list: `%d:`. */
  function IntField(x: int): string {
    IntText(x) + ":"
  }

  /** The line `print_int_list` prints, with the buffer starting empty. It
      reads back as the list it was printed from. */
  function IntListLine(xs: seq<int>): (r: string)
    ensures |xs| == 0 ==> r == "Int List:  \n"
    ensures ParseIntListLine(r) == Some(xs)
  {
    IntListRoundTrip(xs);
    "Int List: " + ConcatMap(IntField, xs) + " \n"
  }

  /** The line as the code is written: the buffer is never initialised and
      only the loop writes to it, so for an empty list the line shows
      whatever the buffer held before (`stale`). */
  function IntListLineAsWritten(xs: seq<int>, stale: string): (r: string)
    ensures |xs| > 0 ==> r == IntListLine(xs)
  {
    "Int List: " + (if |xs| == 0 then stale else ConcatMap(IntField, xs)) + " \n"
  }

  /** Reads back an integer-list line. */
  function ParseIntListLine(t: string): Option<seq<int>> {
    match Between("Int List: ", " \n", t)
    case None => None
    case Some(mid) => ParseInts(Tokens(mid, {':'}))
  }

  /** Every integer list is read back, in order, from the label, its `%d:`
      fields and the closing ` \n`. */
  lemma {:induction false} IntListRoundTrip(xs: seq<int>)
    ensures ParseIntListLine("Int List: " + ConcatMap(IntField, xs) + " \n") == Some(xs)
  {
    BetweenOf("Int List: ", ConcatMap(IntField, xs), " \n");
    forall k | 0 <= k < |xs|
      ensures |IntText(xs[k])| > 0 && NoneIn(IntText(xs[k]), {':'})
    {
      IntTextFree(xs[k], {':'});
    }
    TokensOfTerminated(IntField, IntText, ':', xs);
    ParseIntsWords(xs);
  }

  /** The line the code as written prints for an empty list reads back as
      a non-empty list when the stale buffer happens to hold `5:`. */
  lemma IntListAsWrittenShowsStaleBuffer()
    ensures ParseIntListLine(IntListLineAsWritten([], "5:")) == Some([5])
    ensures ParseIntListLine(IntListLine([])) == Some([])
  {
    var mid := "5:";
    var line := IntListLineAsWritten([], mid);
    assert line == "Int List: " + mid + " \n";
    BetweenOf("Int List: ", mid, " \n");
    assert Between("Int List: ", " \n", line) == Some(mid);
    assert mid == "5" + [':'] + "";
    TokensWord("5", ':', "", {':'});
    assert Tokens(mid, {':'}) == ["5"];
    IntTextRoundTrip(5);
    assert IntText(5) == "5";
    assert ParseInts(["5"]) == Some([5]) by {
      var ts: seq<string> := ["5"];
      assert ts[0] == "5" && ts[1..] == [];
      assert ParseInt(ts[0]) == Some(5);
      assert ParseInts(ts[1..]) == Some([]);
      assert [5] + [] == [5];
    }
  }

  /** `print_int_list`: walks the list, prints its line, and leaves the list
      as it found it. `stale` is what the never-initialised buffer holds
      before the walk; it shows only when the list is empty. */
  method PrintIntList(list: seq<int>, stale: string) returns (after: seq<int>, out: string)
    ensures after == list
    ensures out == IntListLineAsWritten(list, stale)
    ensures |list| > 0 ==> ParseIntListLine(out) == Some(list)
  {
    var visited, buf;
    after, visited, buf := Traverse(list, IntField);
    if |list| == 0 {
      buf := stale;
    }
    out := "Int List: " + buf + " \n";
  }

  // ---------------------------------------------------------------------
  // print_string_list
  // ---------------------------------------------------------------------

  /** One element of a string list: `%s,`. */
  function StringField(s: string): string {
    s + ","
  }

  /** What `print_string_list` prints: nothing for a null list, otherwise
      the fields and a closing blank, with the buffer starting empty. */
  function StringListText(list: Option<seq<string>>): (r: string)
    ensures list.None? <==> r == ""
  {
    match list
    case None => ""
    case Some(xs) => ConcatMap(StringField, xs) + " \n"
  }

  /** The text as the code is written: for an empty, non-null list the
      never-initialised buffer (`stale`) is printed. */
  function StringListTextAsWritten(list: Option<seq<string>>, stale: string): (r: string)
    ensures list.None? || |list.value| > 0 ==> r == StringListText(list)
  {
    match list
    case None => ""
    case Some(xs) => (if |xs| == 0 then stale else ConcatMap(StringField, xs)) + " \n"
  }

  /** Reads back a string-list line. */
  function ParseStringListText(t: string): Option<seq<string>> {
    match Between("", " \n", t)
    case None => None
    case Some(mid) => Some(Tokens(mid, {','}))
  }

  /** Every list of non-empty, comma-free strings is read back, in order,
      from its printed line. */
  lemma {:induction false} StringListRoundTrip(xs: seq<string>)
    requires forall k :: 0 <= k < |xs| ==> |xs[k]| > 0 && NoneIn(xs[k], {','})
    ensures ParseStringListText(StringListText(Some(xs))) == Some(xs)
  {
    var mid := ConcatMap(StringField, xs);
    assert StringListText(Some(xs)) == "" + mid + " \n";
    BetweenOf("", mid, " \n");
    TokensOfTerminated(StringField, s => s, ',', xs);
    assert Words(s => s, xs) == xs;
  }

  /** For an empty list the code as written prints the stale buffer, which
      reads back as a list the caller never had. */
  lemma StringListAsWrittenShowsStaleBuffer()
    ensures ParseStringListText(StringListTextAsWritten(Some([]), "a,")) == Some(["a"])
    ensures ParseStringListText(StringListText(Some([]))) == Some([])
  {
    StringListRoundTrip([]);
    var mid := "a,";
    var line := StringListTextAsWritten(Some([]), mid);
    assert line == "" + mid + " \n";
    BetweenOf("", mid, " \n");
    assert Between("", " \n", line) == Some(mid);
    assert mid == "a" + [','] + "";
    TokensWord("a", ',', "", {','});
    assert Tokens(mid, {','}) == ["a"];
  }

  /** `print_string_list`: a null list prints nothing; otherwise the list is
      walked, printed and left as it was. `stale` is what the
      never-initialised buffer holds before the walk; it shows only when the
      list is empty. */
  method PrintStringList(list: Option<seq<string>>, stale: string) returns (after: Option<seq<string>>, out: string)
    ensures after == list
    ensures out == StringListTextAsWritten(list, stale)
    ensures list.Some? && |list.value| > 0
            && (forall k :: 0 <= k < |list.value| ==> |list.value[k]| > 0 && NoneIn(list.value[k], {','}))
            ==> ParseStringListText(out) == list
  {
    if list.None? {
      return list, "";
    }
    var rest, visited, buf := Traverse(list.value, StringField);
    after := Some(rest);
    if |list.value| == 0 {
      buf := stale;
    }
    out := buf + " \n";
    if forall k :: 0 <= k < |list.value| ==> |list.value[k]| > 0 && NoneIn(list.value[k], {','}) {
      StringListRoundTrip(list.value);
    }
  }

  // ---------------------------------------------------------------------
  // print_ports
  // ---------------------------------------------------------------------

  /** A port or port range; `-1` in the second port means a single port. */
  datatype PortEle = PortEle(portA: int, portB: int)

  const NoSecondPort: int := -1

  /** The lines `print_ports` writes for one element: the first port, and
      for a range a second line with both ends. */
  function PortLines(p: PortEle): (r: string)
    ensures IsPrefix(" " + IntText(p.portA) + " \n", r)
    ensures |r| > |" " + IntText(p.portA) + " \n"| <==> p.portB != NoSecondPort
  {
    " " + IntText(p.portA) + " \n"
      + (if p.portB != NoSecondPort then " " + IntText(p.portA) + " - " + IntText(p.portB) + " \n" else "")
  }

  /** Reads back the lines of one port element. */
  function ParsePortLines(t: string): Option<PortEle> {
    var ts := Tokens(t, {' ', '\n'});
    if |ts| == 1 then
      match ParseInt(ts[0])
      case None => None
      case Some(a) => Some(PortEle(a, NoSecondPort))
    else if |ts| == 4 && ts[0] == ts[1] && ts[2] == "-" then
      match (ParseInt(ts[0]), ParseInt(ts[3]))
      case (Some(a), Some(b)) => if b == NoSecondPort then None else Some(PortEle(a, b))
      case _ => None
    else None
  }

  /** `" " + w + " \n" + rest` yields the token `w`, then the tokens of
      `rest`. */
  lemma PortWord(w: string, rest: string)
    requires |w| > 0 && NoneIn(w, {' ', '\n'})
    ensures Tokens(" " + w + " \n" + rest, {' ', '\n'}) == [w] + Tokens(rest, {' ', '\n'})
  {
    var ds: set<char> := {' ', '\n'};
    assert " " + w + " \n" + rest == " " + (w + [' '] + ("\n" + rest));
    TokensSkipDelims(" ", w + [' '] + ("\n" + rest), ds);
    TokensWord(w, ' ', "\n" + rest, ds);
    assert "\n" + rest == "\n" + rest;
    TokensSkipDelims("\n", rest, ds);
  }

  /** `%d` text never holds a blank or a newline. */
  lemma PortNumberWord(i: int)
    ensures |IntText(i)| > 0 && NoneIn(IntText(i), {' ', '\n'})
  {
    IntTextFree(i, {' ', '\n'});
  }

  /** The range line yields the first port, a dash and the second port. */
  lemma RangeLineTokens(a: string, b: string)
    requires |a| > 0 && NoneIn(a, {' ', '\n'}) && |b| > 0 && NoneIn(b, {' ', '\n'})
    ensures Tokens(" " + a + " - " + b + " \n", {' ', '\n'}) == [a, "-", b]
  {
    var ds: set<char> := {' ', '\n'};
    var t2 := "-" + [' '] + (b + [' '] + "\n");
    RangeLineShape(a, b);
    TokensSkipDelims(" ", a + [' '] + t2, ds);
    TokensWord(a, ' ', t2, ds);
    DashTokens(b);
  }

  /** The dash and the second port, then the end of the line. */
  lemma DashTokens(b: string)
    requires |b| > 0 && NoneIn(b, {' ', '\n'})
    ensures Tokens("-" + [' '] + (b + [' '] + "\n"), {' ', '\n'}) == ["-", b]
  {
    var ds: set<char> := {' ', '\n'};
    TokensWord("-", ' ', b + [' '] + "\n", ds);
    PortEndTokens(b);
  }

  /** A port word, then a blank and the newline. */
  lemma PortEndTokens(b: string)
    requires |b| > 0 && NoneIn(b, {' ', '\n'})
    ensures Tokens(b + [' '] + "\n", {' ', '\n'}) == [b]
  {
    var ds: set<char> := {' ', '\n'};
    TokensWord(b, ' ', "\n", ds);
    assert "\n" == "\n" + "";
    TokensSkipDelims("\n", "", ds);
  }

  /** The range line regrouped word by word. */
  lemma RangeLineShape(a: string, b: string)
    ensures " " + a + " - " + b + " \n" == " " + (a + [' '] + ("-" + [' '] + (b + [' '] + "\n")))
  {
    var t3 := b + [' '] + "\n";
    assert b + " \n" == t3;
    assert " - " + t3 == [' '] + ("-" + [' '] + t3);
    assert " - " + b + " \n" == [' '] + ("-" + [' '] + t3);
  }

  /** Every port element is read back from the lines printed for it: the
      range line appears exactly when the second port is set. */
  lemma {:induction false} PortLinesRoundTrip(p: PortEle)
    ensures ParsePortLines(PortLines(p)) == Some(p)
  {
    var a := IntText(p.portA);
    var b := IntText(p.portB);
    PortNumberWord(p.portA);
    PortNumberWord(p.portB);
    IntTextRoundTrip(p.portA);
    IntTextRoundTrip(p.portB);
    if p.portB != NoSecondPort {
      var second := " " + a + " - " + b + " \n";
      assert PortLines(p) == " " + a + " \n" + second;
      PortWord(a, second);
      RangeLineTokens(a, b);
      assert Tokens(PortLines(p), {' ', '\n'}) == [a, a, "-", b];
    } else {
      assert PortLines(p) == " " + a + " \n" + "";
      PortWord(a, "");
      assert Tokens(PortLines(p), {' ', '\n'}) == [a];
    }
  }

  /** `print_ports`: walks the list, printing each element's lines, and
      leaves the list as it found it. */
  method PrintPorts(list: seq<PortEle>) returns (after: seq<PortEle>, out: string)
    ensures after == list
    ensures out == ConcatMap(PortLines, list)
  {
    var visited;
    after, visited, out := Traverse(list, PortLines);
  }

  // ---------------------------------------------------------------------
  // print_domain_list
  // ---------------------------------------------------------------------

  /** A proxy domain; a null domain name prints nothing. */
  datatype Domain = Domain(domainVal: Option<string>, port: int)

  /** The line `print_domain_list` prints for one element: `%s:%d`. */
  function DomainLine(d: Domain): (r: string)
    ensures d.domainVal.None? <==> r == ""
  {
    match d.domainVal
    case None => ""
    case Some(v) => v + ":" + IntText(d.port) + "\n"
  }

  /** Reads back a domain line, splitting at its last colon. */
  function ParseDomainLine(t: string): Option<(string, int)> {
    if |t| == 0 || t[|t| - 1] != '\n' then None
    else
      var body := t[..|t| - 1];
      match LastIndexOf(body, ':')
      case None => None
      case Some(i) =>
        match ParseInt(body[i + 1..])
        case None => None
        case Some(port) => Some((body[..i], port))
  }

  /** Every domain with a name is read back from its line, whatever the
      name holds. */
  lemma DomainLineRoundTrip(d: Domain)
    requires d.domainVal.Some?
    ensures ParseDomainLine(DomainLine(d)) == Some((d.domainVal.value, d.port))
  {
    var v := d.domainVal.value;
    var body := v + [':'] + IntText(d.port);
    assert DomainLine(d) == body + "\n";
    assert (body + "\n")[..|body|] == body;
    IntTextFree(d.port, {':'});
    LastIndexOfBefore(v, ':', IntText(d.port));
    assert body[..|v|] == v;
    assert body[|v| + 1..] == IntText(d.port);
    IntTextRoundTrip(d.port);
  }

  /** The domains that have a name, in order. */
  function Named(ds: seq<Domain>): (r: seq<Domain>)
    ensures |r| <= |ds|
    decreases |ds|
  {
    if |ds| == 0 then []
    else Named(ds[..|ds| - 1]) + (if ds[|ds| - 1].domainVal.Some? then [ds[|ds| - 1]] else [])
  }

  /** Nameless domains contribute nothing to the printed list: the text is
      that of the named domains alone, in the same order. */
  lemma {:induction false} DomainListSkipsNameless(ds: seq<Domain>)
    ensures ConcatMap(DomainLine, ds) == ConcatMap(DomainLine, Named(ds))
    decreases |ds|
  {
    if |ds| > 0 {
      var last := ds[|ds| - 1];
      DomainListSkipsNameless(ds[..|ds| - 1]);
      var tail := if last.domainVal.Some? then [last] else [];
      ConcatMapAppend(DomainLine, Named(ds[..|ds| - 1]), tail);
      if last.domainVal.Some? {
        assert ConcatMap(DomainLine, [last]) == ConcatMap(DomainLine, [last][..0]) + DomainLine(last);
        assert [last][..0] == [];
      }
    }
  }

  /** `print_domain_list`: walks the list and leaves it as it found it. */
  method PrintDomainList(list: seq<Domain>) returns (after: seq<Domain>, out: string)
    ensures after == list
    ensures out == ConcatMap(DomainLine, Named(list))
  {
    var visited;
    after, visited, out := Traverse(list, DomainLine);
    DomainListSkipsNameless(list);
  }

  // ---------------------------------------------------------------------
  // print_ip_list and print_list_of_ip_list
  // ---------------------------------------------------------------------

  /** The text of an address list: one `print_ip_addr_ele` line per element. */
  function IpListText(list: seq<Option<IpAddr.IpAddrEle>>): string {
    ConcatMap(IpAddr.PrintIpAddrEle, list)
  }

  /** `print_ip_list`: walks the list and leaves it as it found it. */
  method PrintIpList(list: seq<Option<IpAddr.IpAddrEle>>) returns (after: seq<Option<IpAddr.IpAddrEle>>, out: string)
    ensures after == list
    ensures out == IpListText(list)
  {
    var visited;
    after, visited, out := Traverse(list, IpAddr.PrintIpAddrEle);
  }

  /** A single element list prints exactly the line of its element, which
      reads back as that element. */
  lemma IpListSingle(e: IpAddr.IpAddrEle)
    requires IpAddr.WellFormed(e)
    ensures IpAddr.ParseIpAddrLine(IpListText([Some(e)])) == Some(IpAddr.Visible(e))
  {
    ConcatMapSingle(IpAddr.PrintIpAddrEle, Some(e));
    IpAddr.IpAddrRoundTrip(e);
  }

  /** The block `print_list_of_ip_list` prints for one inner list: the
      inner list between two newlines. A block holding one well-formed
      address reads back as that address. */
  function IpListBlock(list: seq<Option<IpAddr.IpAddrEle>>): (r: string)
    ensures |r| >= 2 && r[0] == '\n' && r[|r| - 1] == '\n' && r[1..|r| - 1] == IpListText(list)
    ensures |list| == 1 && list[0].Some? && IpAddr.WellFormed(list[0].value) ==>
      IpAddr.ParseIpAddrLine(r[1..|r| - 1]) == Some(IpAddr.Visible(list[0].value))
  {
    if |list| == 1 && list[0].Some? && IpAddr.WellFormed(list[0].value) then
      assert list == [Some(list[0].value)];
      IpListSingle(list[0].value);
      "\n" + IpListText(list) + "\n"
    else
      "\n" + IpListText(list) + "\n"
  }

  /** `print_list_of_ip_list`: walks the outer list, printing each inner list
      in its block; both levels are left as they were found. */
  method PrintListOfIpList(lists: seq<seq<Option<IpAddr.IpAddrEle>>>)
    returns (after: seq<seq<Option<IpAddr.IpAddrEle>>>, out: string)
    ensures after == lists
    ensures out == ConcatMap(IpListBlock, lists)
  {
    var count := |lists|;
    after := lists;
    out := "";
    var i := 0;
    while i < count
      invariant 0 <= i <= count
      invariant after == CycleN(lists, i)
      invariant out == ConcatMap(IpListBlock, lists[..i])
    {
      CycleStep(lists, i);
      ConcatMapPrefix(IpListBlock, lists, i);
      var front := Dequeue(after).value;
      var inner, text := PrintIpList(front.0);
      after := Enqueue(front.1, inner);
      out := out + ("\n" + text + "\n");
      i := i + 1;
    }
    CycleLengthRestores(lists);
    assert lists[..count] == lists;
  }
}

=== FILE: filenames.dfy ===
/** The configuration files the rule-context tests accept, and how the
    `cfg_get:<file>` and `cfg:<file>` commands pick one. Each test reads the
    second `strtok` token of the command line as the file name and looks it
    up in a fixed table; an unknown name ends the test before any context is
    created. The move test's table is the same minus `plugin.config`. */
module FileNames {
  import opened Results
  import opened Text

  /** `TSFileNameT`, restricted to the files the tables name. */
  datatype FileName =
    | CacheObj
    | Congestion
    | Hosting
    | IpAllow
    | ParentProxy
    | Volume
    | Plugin
    | Remap
    | Socks
    | Storage
    | SplitDns

  /** The name on disk of each configuration file. */
  function ConfigFileName(f: FileName): string {
    match f
    case CacheObj => "cache.config"
    case Congestion => "congestion.config"
    case Hosting => "hosting.config"
    case IpAllow => "ip_allow.config"
    case ParentProxy => "parent.config"
    case Volume => "volume.config"
    case Plugin => "plugin.config"
    case Remap => "remap.config"
    case Socks => "socks.config"
    case Storage => "storage.config"
    case SplitDns => "splitdns.config"
  }

  /** The table of `test_cfg_context_get`, in its order of comparison. */
  function FileForGet(name: string): (r: Option<FileName>)
    ensures r.Some? ==> ConfigFileName(r.value) == name
  {
    if name == "cache.config" then Some(CacheObj)
    else if name == "congestion.config" then Some(Congestion)
    else if name == "hosting.config" then Some(Hosting)
    else if name == "ip_allow.config" then Some(IpAllow)
    else if name == "parent.config" then Some(ParentProxy)
    else if name == "volume.config" then Some(Volume)
    else if name == "plugin.config" then Some(Plugin)
    else if name == "remap.config" then Some(Remap)
    else if name == "socks.config" then Some(Socks)
    else if name == "storage.config" then Some(Storage)
    else if name == "splitdns.config" then Some(SplitDns)
    else None
  }

  /** The table of `test_cfg_context_move`, in its order of comparison. */
  function FileForMove(name: string): (r: Option<FileName>)
    ensures r.Some? ==> ConfigFileName(r.value) == name && r.value != Plugin
  {
    if name == "cache.config" then Some(CacheObj)
    else if name == "congestion.config" then Some(Congestion)
    else if name == "hosting.config" then Some(Hosting)
    else if name == "ip_allow.config" then Some(IpAllow)
    else if name == "parent.config" then Some(ParentProxy)
    else if name == "volume.config" then Some(Volume)
    else if name == "remap.config" then Some(Remap)
    else if name == "socks.config" then Some(Socks)
    else if name == "storage.config" then Some(Storage)
    else if name == "splitdns.config" then Some(SplitDns)
    else None
  }

  /** Every file's own name selects that file in the get table. */
  lemma GetTableAcceptsEveryFile(f: FileName)
    ensures FileForGet(ConfigFileName(f)) == Some(f)
  {
    if f.CacheObj? || f.Congestion? || f.Hosting? || f.IpAllow? || f.ParentProxy? || f.Volume? {
      GetTableAcceptsFirstSix(f);
    } else {
      GetTableAcceptsLastFive(f);
    }
  }

  lemma GetTableAcceptsFirstSix(f: FileName)
    requires f.CacheObj? || f.Congestion? || f.Hosting? || f.IpAllow? || f.ParentProxy? || f.Volume?
    ensures FileForGet(ConfigFileName(f)) == Some(f)
  {
    match f
    case CacheObj =>
    case Congestion =>
      assert "congestion.config"[1] != "cache.config"[1];
    case Hosting =>
      assert "hosting.config"[0] != "cache.config"[0];
      assert "hosting.config"[0] != "congestion.config"[0];
    case IpAllow =>
      assert "ip_allow.config"[0] != "cache.config"[0];
      assert "ip_allow.config"[0] != "hosting.config"[0];
    case ParentProxy =>
      assert "parent.config"[0] != "cache.config"[0];
      assert "parent.config"[0] != "hosting.config"[0];
    case Volume =>
      assert "volume.config"[0] != "cache.config"[0];
      assert "volume.config"[0] != "parent.config"[0];
  }

  lemma GetTableAcceptsLastFive(f: FileName)
    requires f.Plugin? || f.Remap? || f.Socks? || f.Storage? || f.SplitDns?
    ensures FileForGet(ConfigFileName(f)) == Some(f)
  {
    assert "cache.config"[0] == 'c' && "congestion.config"[0] == 'c';
    assert "hosting.config"[0] == 'h' && "ip_allow.config"[0] == 'i';
    assert "parent.config"[1] == 'a' && "volume.config"[0] == 'v';
    match f
    case Plugin =>
      assert "plugin.config"[0] != "cache.config"[0];
      assert "plugin.config"[1] != "parent.config"[1];
    case Remap =>
      assert "remap.config"[0] != "cache.config"[0];
      assert "remap.config"[0] != "plugin.config"[0];
    case Socks =>
      assert "socks.config"[0] != "cache.config"[0];
      assert "socks.config"[0] != "remap.config"[0];
    case Storage =>
      assert "storage.config"[0] != "cache.config"[0];
      assert "storage.config"[1] != "socks.config"[1];
    case SplitDns =>
      assert "splitdns.config"[0] != "cache.config"[0];
      assert "splitdns.config"[1] != "socks.config"[1];
      assert "splitdns.config"[1] != "storage.config"[1];
  }

  /** The get table accepts exactly the eleven file names: a name selects
      a file if and only if it is that file's name. */
  lemma GetTableExact(name: string, f: FileName)
    ensures FileForGet(name) == Some(f) <==> name == ConfigFileName(f)
  {
    GetTableAcceptsEveryFile(f);
  }

  /** The move table is the get table with `plugin.config` rejected. */
  lemma MoveTableOmitsPlugin(name: string)
    ensures FileForMove(name) == (if name == ConfigFileName(Plugin) then None else FileForGet(name))
  {
    if name == ConfigFileName(Plugin) {
      GetTableAcceptsEveryFile(Plugin);
    }
  }

  // ---------------------------------------------------------------------
  // The file argument of the command line
  // ---------------------------------------------------------------------

  /** The file name as the tests read it: the second token of the line,
      split at colons only. The line still ends in the newline the prompt
      read with it, and that newline stays on the last token. */
  function FileArgAsWritten(line: string): Option<string> {
    NthToken(line, {':'}, 1)
  }

  /** The file name with the line's newline treated as a separator too. */
  function FileArg(line: string): (r: Option<string>)
    ensures r.Some? ==> NoneIn(r.value, {'\n'})
  {
    NthToken(line, {':', '\n'}, 1)
  }

  function GetTargetAsWritten(line: string): Option<FileName> {
    match FileArgAsWritten(line)
    case None => None
    case Some(name) => FileForGet(name)
  }

  function MoveTargetAsWritten(line: string): Option<FileName> {
    match FileArgAsWritten(line)
    case None => None
    case Some(name) => FileForMove(name)
  }

  /** The file `cfg_get:<file>` selects, reading the name without its
      newline. */
  function GetTarget(line: string): (r: Option<FileName>)
    ensures r.Some? ==> FileArg(line) == Some(ConfigFileName(r.value))
  {
    match FileArg(line)
    case None => None
    case Some(name) => FileForGet(name)
  }

  /** The file `cfg:<file>` selects, reading the name without its newline. */
  function MoveTarget(line: string): (r: Option<FileName>)
    ensures r.Some? ==> FileArg(line) == Some(ConfigFileName(r.value)) && r.value != Plugin
  {
    match FileArg(line)
    case None => None
    case Some(name) => FileForMove(name)
  }

  /** Every table entry ends in `g`, the last letter of `.config`. */
  lemma FileNameEnding(f: FileName)
    ensures |ConfigFileName(f)| > 0 && ConfigFileName(f)[|ConfigFileName(f)| - 1] == 'g'
  {
  }

  /** The tokens of `<command>:<file>\n`, split at colons only: the file
      token keeps the newline. */
  lemma CommandTokensAsWritten(command: string, file: string)
    requires |command| > 0 && NoneIn(command, {':'}) && NoneIn(file, {':'})
    ensures FileArgAsWritten(command + ":" + file + "\n") == Some(file + "\n")
  {
    var line := command + ":" + file + "\n";
    assert line == command + [':'] + (file + "\n");
    TokensWord(command, ':', file + "\n", {':'});
    TokensLastWord(file + "\n", {':'});
  }

  /** The tokens of `<command>:<file>\n`, split at colons and newlines. */
  lemma CommandTokens(command: string, file: string)
    requires |command| > 0 && NoneIn(command, {':', '\n'})
    requires |file| > 0 && NoneIn(file, {':', '\n'})
    ensures FileArg(command + ":" + file + "\n") == Some(file)
  {
    var ds: set<char> := {':', '\n'};
    var line := command + ":" + file + "\n";
    assert line == command + [':'] + (file + ['\n'] + "");
    TokensWord(command, ':', file + ['\n'] + "", ds);
    TokensWord(file, '\n', "", ds);
  }

  /** A name ending in a newline is in neither table. */
  lemma NewlineNameRejected(name: string)
    requires |name| > 0 && name[|name| - 1] == '\n'
    ensures FileForGet(name) == None && FileForMove(name) == None
  {
    if FileForGet(name).Some? {
      FileNameEnding(FileForGet(name).value);
    }
    if FileForMove(name).Some? {
      FileNameEnding(FileForMove(name).value);
    }
  }

  /** As written, a line `cfg_get:<name>` or `cfg:<name>` typed at the
      prompt with a colon-free name selects no file: the name read keeps the
      line's newline, and no table entry ends in one. */
  lemma AsWrittenRejectsEveryTypedFile(name: string)
    requires NoneIn(name, {':', '\n'})
    ensures GetTargetAsWritten("cfg_get:" + name + "\n") == None
    ensures MoveTargetAsWritten("cfg:" + name + "\n") == None
  {
    assert "cfg_get:" == "cfg_get" + ":" && "cfg:" == "cfg" + ":";
    CommandTokensAsWritten("cfg_get", name);
    CommandTokensAsWritten("cfg", name);
    NewlineNameRejected(name + "\n");
  }

  /** With the newline treated as a separator, a typed command looks up the
      name it gives: it selects a file exactly when that name is the file's
      own, and the move command still refuses `plugin.config`. */
  lemma TypedCommandSelectsFile(name: string, f: FileName)
    requires |name| > 0 && NoneIn(name, {':', '\n'})
    ensures GetTarget("cfg_get:" + name + "\n") == Some(f) <==> name == ConfigFileName(f)
    ensures MoveTarget("cfg:" + name + "\n") == Some(f) <==> name == ConfigFileName(f) && f != Plugin
  {
    assert "cfg_get:" == "cfg_get" + ":" && "cfg:" == "cfg" + ":";
    CommandTokens("cfg_get", name);
    CommandTokens("cfg", name);
    GetTableExact(name, f);
    MoveTableOmitsPlugin(name);
  }

  /** The tokens of `<command>:<file>:\n`, split at colons only: a second
      colon ends the file token before the newline. */
  lemma CommandTokensTrailingColon(command: string, file: string)
    requires |command| > 0 && NoneIn(command, {':'})
    requires |file| > 0 && NoneIn(file, {':'})
    ensures FileArgAsWritten(command + ":" + file + ":\n") == Some(file)
  {
    var ds: set<char> := {':'};
    var line := command + ":" + file + ":\n";
    assert line == command + [':'] + (file + [':'] + "\n");
    TokensWord(command, ':', file + [':'] + "\n", ds);
    TokensWord(file, ':', "\n", ds);
    TokensLastWord("\n", ds);
  }

  /** As written, a second colon after the name works around the kept
      newline: `cfg_get:<name>:` and `cfg:<name>:` look the name up as the
      tables expect. */
  lemma TrailingColonSelectsFile(name: string, f: FileName)
    requires |name| > 0 && NoneIn(name, {':', '\n'})
    ensures GetTargetAsWritten("cfg_get:" + name + ":\n") == Some(f) <==> name == ConfigFileName(f)
    ensures MoveTargetAsWritten("cfg:" + name + ":\n") == Some(f) <==> name == ConfigFileName(f) && f != Plugin
  {
    assert "cfg_get:" == "cfg_get" + ":" && "cfg:" == "cfg" + ":";
    CommandTokensTrailingColon("cfg_get", name);
    CommandTokensTrailingColon("cfg", name);
    GetTableExact(name, f);
    MoveTableOmitsPlugin(name);
  }
}

=== FILE: ipaddr.dfy ===
/** The IP-address element (`TSIpAddrEle`): a single address or a range,
    each end optionally carrying a CIDR prefix length, and the one-line text
    `print_ip_addr_ele` writes for it, with a reader that inverts it. */
module IpAddr {
  import opened Results
  import opened Text

  datatype IpAddrType = IpRange | IpSingle | IpUndefined

  /** A CIDR field holding -1 means "no prefix length given". */
  const NoCidr: int := -1

  datatype IpAddrEle = IpAddrEle(kind: IpAddrType, ipA: string, cidrA: int, ipB: string, cidrB: int)

  /** One end of the element as printed: `ip` or `ip/cidr`. */
  function AddrText(ip: string, cidr: int): string {
    ip + "/" + IntText(cidr)
  }

  /** The line `print_ip_addr_ele` prints. Only a range shows the second
      address, and whether either end shows a prefix length is decided by
      the first end's CIDR alone. */
  function IpAddrEleText(e: IpAddrEle): (r: string)
    ensures IsPrefix("IP_addr: ", r) && r[|r| - 1] == '\n'
  {
    if e.kind == IpRange then
      if e.cidrA != NoCidr then
        "IP_addr: " + AddrText(e.ipA, e.cidrA) + " - " + AddrText(e.ipB, e.cidrB) + "\n"
      else
        "IP_addr: " + e.ipA + " - " + e.ipB + "\n"
    else
      if e.cidrA != NoCidr then
        "IP_addr: " + AddrText(e.ipA, e.cidrA) + " \n"
      else
        "IP_addr: " + e.ipA + " \n"
  }

  /** `print_ip_addr_ele` on a possibly null element: nothing for null. */
  function PrintIpAddrEle(ele: Option<IpAddrEle>): (r: string)
    ensures ele.None? <==> r == ""
  {
    match ele
    case None => ""
    case Some(e) => IpAddrEleText(e)
  }

  /** The information the printed line keeps: an undefined type prints as a
      single address, a single address hides its second end, and a missing
      first prefix length hides the second one. */
  function Visible(e: IpAddrEle): IpAddrEle {
    if e.kind == IpRange then
      if e.cidrA == NoCidr then e.(cidrB := NoCidr) else e
    else
      IpAddrEle(IpSingle, e.ipA, e.cidrA, "", NoCidr)
  }

  /** Addresses that print unambiguously: no blank and no slash. */
  predicate PrintableIp(ip: string) {
    NoneIn(ip, {' ', '/'})
  }

  /** The addresses the line shows are printable: the first always, the
      second only for a range. */
  predicate WellFormed(e: IpAddrEle) {
    PrintableIp(e.ipA) && (e.kind == IpRange ==> PrintableIp(e.ipB))
  }

  /** Reads `ip` or `ip/cidr`. */
  function ParseAddr(t: string): Option<(string, int)> {
    match IndexOfAny(t, {'/'})
    case None => Some((t, NoCidr))
    case Some(k) =>
      match ParseInt(t[k + 1..])
      case None => None
      case Some(n) => Some((t[..k], n))
  }

  /** Reads back a line printed by `IpAddrEleText`. */
  function ParseIpAddrLine(t: string): Option<IpAddrEle> {
    if IsPrefix("IP_addr: ", t) && |t| >= 10 && t[|t| - 1] == '\n' then ParseBody(t[9..|t| - 1]) else None
  }

  /** Reads the part of the line between the label and the newline. */
  function ParseBody(body: string): Option<IpAddrEle> {
    match IndexOfAny(body, {' '})
    case None => None
    case Some(i) =>
      match ParseAddr(body[..i])
      case None => None
      case Some(first) =>
        if body[i..] == " " then
          Some(IpAddrEle(IpSingle, first.0, first.1, "", NoCidr))
        else if |body| >= i + 3 && body[i..i + 3] == " - " then
          match ParseAddr(body[i + 3..])
          case None => None
          case Some(second) =>
            var cidrB := if first.1 == NoCidr then NoCidr else second.1;
            Some(IpAddrEle(IpRange, first.0, first.1, second.0, cidrB))
        else None
  }

  lemma LineBody(body: string)
    ensures ParseIpAddrLine("IP_addr: " + body + "\n") == ParseBody(body)
  {
    var t := "IP_addr: " + body + "\n";
    assert t[..9] == "IP_addr: ";
    assert t[9..|t| - 1] == body;
  }

  lemma ParseAddrPlain(ip: string)
    requires PrintableIp(ip)
    ensures ParseAddr(ip) == Some((ip, NoCidr))
  {
    IndexOfAnyAbsent(ip, {'/'});
  }

  lemma ParseAddrWithCidr(ip: string, cidr: int)
    requires PrintableIp(ip)
    ensures ParseAddr(AddrText(ip, cidr)) == Some((ip, cidr))
  {
    var t := AddrText(ip, cidr);
    IndexOfAnyAfter(ip, '/', IntText(cidr), {'/'});
    assert t[|ip| + 1..] == IntText(cidr);
    assert t[..|ip|] == ip;
    IntTextRoundTrip(cidr);
  }

  /** The `ip` or `ip/cidr` word holds no blank. */
  lemma AddrWordNoBlank(ip: string, cidr: int)
    requires PrintableIp(ip)
    ensures NoneIn(AddrText(ip, cidr), {' '})
  {
    IntTextFree(cidr, {' '});
  }

  /** Reading a body `first + tail` where `first` is blank-free. */
  lemma SplitBody(first: string, tail: string)
    requires NoneIn(first, {' '}) && |tail| > 0 && tail[0] == ' '
    ensures IndexOfAny(first + tail, {' '}) == Some(|first|)
    ensures (first + tail)[..|first|] == first && (first + tail)[|first|..] == tail
  {
    var rest := tail[1..];
    assert tail == [' '] + rest;
    assert first + tail == first + [' '] + rest;
    IndexOfAnyAfter(first, ' ', rest, {' '});
  }

  /** The printed first end, `ip` or `ip/cidr`, reads back as that end. */
  lemma {:induction false} FirstWord(ip: string, cidr: int) returns (w: string)
    requires PrintableIp(ip)
    ensures w == (if cidr != NoCidr then AddrText(ip, cidr) else ip)
    ensures NoneIn(w, {' '}) && ParseAddr(w) == Some((ip, cidr))
  {
    if cidr != NoCidr {
      w := AddrText(ip, cidr);
      ParseAddrWithCidr(ip, cidr);
      AddrWordNoBlank(ip, cidr);
    } else {
      w := ip;
      ParseAddrPlain(ip);
    }
  }

  /** A range body reads back from its two printed ends. */
  lemma RangeBody(first: string, second: string, f: (string, int), g: (string, int))
    requires NoneIn(first, {' '}) && ParseAddr(first) == Some(f) && ParseAddr(second) == Some(g)
    ensures ParseBody(first + (" - " + second))
         == Some(IpAddrEle(IpRange, f.0, f.1, g.0, if f.1 == NoCidr then NoCidr else g.1))
  {
    var body := first + (" - " + second);
    SplitBody(first, " - " + second);
    assert body[|first|..|first| + 3] == " - ";
    assert body[|first| + 3..] == second;
  }

  /** The range line regrouped around its body. */
  lemma RangeLine(first: string, second: string)
    ensures "IP_addr: " + first + " - " + second + "\n" == "IP_addr: " + (first + (" - " + second)) + "\n"
  {
  }

  lemma {:induction false} RangeCidrRoundTrip(e: IpAddrEle)
    requires WellFormed(e) && e.kind == IpRange && e.cidrA != NoCidr
    ensures ParseIpAddrLine(IpAddrEleText(e)) == Some(Visible(e))
  {
    var first := AddrText(e.ipA, e.cidrA);
    var second := AddrText(e.ipB, e.cidrB);
    ParseAddrWithCidr(e.ipA, e.cidrA);
    AddrWordNoBlank(e.ipA, e.cidrA);
    ParseAddrWithCidr(e.ipB, e.cidrB);
    RangeBody(first, second, (e.ipA, e.cidrA), (e.ipB, e.cidrB));
    RangeLine(first, second);
    LineBody(first + (" - " + second));
  }

  lemma {:induction false} RangePlainRoundTrip(e: IpAddrEle)
    requires WellFormed(e) && e.kind == IpRange && e.cidrA == NoCidr
    ensures ParseIpAddrLine(IpAddrEleText(e)) == Some(Visible(e))
  {
    ParseAddrPlain(e.ipA);
    ParseAddrPlain(e.ipB);
    RangeBody(e.ipA, e.ipB, (e.ipA, NoCidr), (e.ipB, NoCidr));
    RangeLine(e.ipA, e.ipB);
    LineBody(e.ipA + (" - " + e.ipB));
  }

  /** The single-address line regrouped around its body. */
  lemma SingleLine(first: string)
    ensures "IP_addr: " + first + " \n" == "IP_addr: " + (first + " ") + "\n"
  {
  }

  lemma {:induction false} SingleRoundTrip(e: IpAddrEle)
    requires WellFormed(e) && e.kind != IpRange
    ensures ParseIpAddrLine(IpAddrEleText(e)) == Some(Visible(e))
  {
    var first := FirstWord(e.ipA, e.cidrA);
    assert IpAddrEleText(e) == "IP_addr: " + first + " \n";
    SingleLine(first);
    LineBody(first + " ");
    SplitBody(first, " ");
  }

  /** Every well-formed element is read back from its printed line, up to the
      information the line does not show. */
  lemma IpAddrRoundTrip(e: IpAddrEle)
    requires WellFormed(e)
    ensures ParseIpAddrLine(IpAddrEleText(e)) == Some(Visible(e))
  {
    if e.kind == IpRange && e.cidrA != NoCidr {
      RangeCidrRoundTrip(e);
    } else if e.kind == IpRange {
      RangePlainRoundTrip(e);
    } else {
      SingleRoundTrip(e);
    }
  }
}

=== FILE: remap.dfy ===
/** The URL-remapping rule (`TSRemapEle`) and the line `print_remap_ele`
    writes for it: `<type> <scheme>://<host>[:port][/prefix] <scheme>://...`.
    A reader inverts the line, which pins down exactly what it shows. */
module Remap {
  import opened Results
  import opened Text

  datatype RemapType = Map | ReverseMap | Redirect | RedirectTemporary | OtherRuleType

  datatype Scheme = SchemeNone | Http | Https | SchemeUndefined

  /** The port value meaning "no port given" (`TS_INVALID_PORT`). */
  const InvalidPort: int := 0

  /** One side of a remapping; a null host or path prefix is `None`. */
  datatype Endpoint = Endpoint(scheme: Scheme, host: Option<string>, port: int, prefix: Option<string>)

  datatype RemapEle = RemapEle(kind: RemapType, from: Endpoint, to: Endpoint)

  /** The leading keyword; rule types other than the four remap ones print
      nothing before the blank. */
  function TypeName(t: RemapType): string {
    match t
    case Map => "map"
    case ReverseMap => "reverse_map"
    case Redirect => "redirect"
    case RedirectTemporary => "redirect_temporary"
    case OtherRuleType => ""
  }

  /** The scheme before `://`; none and undefined print nothing. */
  function SchemeName(s: Scheme): string {
    match s
    case Http => "http"
    case Https => "https"
    case _ => ""
  }

  function PortText(port: int): string {
    if port != InvalidPort then ":" + IntText(port) else ""
  }

  function PrefixText(prefix: Option<string>): string {
    match prefix
    case Some(p) => "/" + p
    case None => ""
  }

  /** `<scheme>://<host>[:port][/prefix]`. */
  function EndpointText(e: Endpoint): string {
    SchemeName(e.scheme) + "://" + e.host.GetOr("") + PortText(e.port) + PrefixText(e.prefix)
  }

  /** The line `print_remap_ele` prints for a non-null element. */
  function RemapEleText(e: RemapEle): string {
    TypeName(e.kind) + " " + EndpointText(e.from) + " " + EndpointText(e.to) + "\n"
  }

  // ---------------------------------------------------------------------
  // Reading the line back
  // ---------------------------------------------------------------------

  function ParseTypeName(t: string): RemapType {
    if t == "map" then Map
    else if t == "reverse_map" then ReverseMap
    else if t == "redirect" then Redirect
    else if t == "redirect_temporary" then RedirectTemporary
    else OtherRuleType
  }

  function ParseSchemeName(t: string): Option<Scheme> {
    if t == "http" then Some(Http)
    else if t == "https" then Some(Https)
    else if t == "" then Some(SchemeNone)
    else None
  }

  function HostOf(h: string): Option<string> {
    if h == "" then None else Some(h)
  }

  /** Reads `<port>[/prefix]`, the part after the port's colon. */
  function ParsePortPart(after: string): Option<(int, Option<string>)> {
    match IndexOfAny(after, {'/'})
    case None =>
      (match ParseInt(after)
       case None => None
       case Some(p) => Some((p, None)))
    case Some(m) =>
      (match ParseInt(after[..m])
       case None => None
       case Some(p) => Some((p, Some(after[m + 1..]))))
  }

  /** Reads `<host>[:port][/prefix]`. */
  function ParseHostPart(rest: string): Option<(Option<string>, int, Option<string>)> {
    match IndexOfAny(rest, {':', '/'})
    case None => Some((HostOf(rest), InvalidPort, None))
    case Some(j) =>
      if rest[j] == '/' then Some((HostOf(rest[..j]), InvalidPort, Some(rest[j + 1..])))
      else
        match ParsePortPart(rest[j + 1..])
        case None => None
        case Some(pp) => Some((HostOf(rest[..j]), pp.0, pp.1))
  }

  /** Reads `<scheme>://<host>[:port][/prefix]`. */
  function ParseEndpoint(t: string): Option<Endpoint> {
    match IndexOfAny(t, {':'})
    case None => None
    case Some(k) =>
      if !(|t| >= k + 3 && t[k..k + 3] == "://") then None
      else
        match ParseSchemeName(t[..k])
        case None => None
        case Some(scheme) =>
          match ParseHostPart(t[k + 3..])
          case None => None
          case Some(hp) => Some(Endpoint(scheme, hp.0, hp.1, hp.2))
  }

  /** Reads back a line printed by `RemapEleText`. */
  function ParseRemapLine(t: string): Option<RemapEle> {
    if |t| == 0 || t[|t| - 1] != '\n' then None
    else
      var body := t[..|t| - 1];
      match IndexOfAny(body, {' '})
      case None => None
      case Some(i) =>
        var rest := body[i + 1..];
        match IndexOfAny(rest, {' '})
        case None => None
        case Some(j) =>
          match (ParseEndpoint(rest[..j]), ParseEndpoint(rest[j + 1..]))
          case (Some(from), Some(to)) => Some(RemapEle(ParseTypeName(body[..i]), from, to))
          case _ => None
  }

  // ---------------------------------------------------------------------
  // Round trip
  // ---------------------------------------------------------------------

  /** What the printed endpoint keeps: an undefined scheme prints like none,
      an empty host like a null one. */
  function VisibleEndpoint(e: Endpoint): Endpoint {
    Endpoint(if e.scheme == SchemeUndefined then SchemeNone else e.scheme,
             HostOf(e.host.GetOr("")), e.port, e.prefix)
  }

  function Visible(e: RemapEle): RemapEle {
    RemapEle(e.kind, VisibleEndpoint(e.from), VisibleEndpoint(e.to))
  }

  /** Hosts free of separators and prefixes free of blanks print unambiguously. */
  predicate WellFormedEndpoint(e: Endpoint) {
    (e.host.Some? ==> NoneIn(e.host.value, {':', '/', ' '})) && (e.prefix.Some? ==> NoneIn(e.prefix.value, {' '}))
  }

  predicate WellFormed(e: RemapEle) {
    WellFormedEndpoint(e.from) && WellFormedEndpoint(e.to)
  }

  lemma PortPartRoundTrip(port: int, prefix: Option<string>)
    ensures ParsePortPart(IntText(port) + PrefixText(prefix)) == Some((port, prefix))
  {
    IntTextRoundTrip(port);
    IntTextFree(port, {'/'});
    if prefix.Some? {
      PortPartSlash(IntText(port), prefix.value);
    } else {
      assert IntText(port) + PrefixText(prefix) == IntText(port);
      IndexOfAnyAbsent(IntText(port), {'/'});
    }
  }

  /** A port word followed by a prefix splits at the slash. */
  lemma PortPartSlash(w: string, p: string)
    requires NoneIn(w, {'/'})
    ensures var after := w + ("/" + p);
            IndexOfAny(after, {'/'}) == Some(|w|) && after[..|w|] == w && after[|w| + 1..] == p
  {
    var after := w + ("/" + p);
    assert after == w + ['/'] + p;
    IndexOfAnyAfter(w, '/', p, {'/'});
  }

  lemma HostPartNoPort(h: string, prefix: Option<string>)
    requires NoneIn(h, {':', '/'})
    ensures ParseHostPart(h + PrefixText(prefix)) == Some((HostOf(h), InvalidPort, prefix))
  {
    if prefix.Some? {
      HostPartSlash(h, prefix.value);
    } else {
      assert h + PrefixText(prefix) == h;
      IndexOfAnyAbsent(h, {':', '/'});
    }
  }

  lemma HostPartSlash(h: string, p: string)
    requires NoneIn(h, {':', '/'})
    ensures ParseHostPart(h + ("/" + p)) == Some((HostOf(h), InvalidPort, Some(p)))
  {
    var rest := h + ("/" + p);
    assert rest == h + ['/'] + p;
    IndexOfAnyAfter(h, '/', p, {':', '/'});
    assert rest[..|h|] == h;
    assert rest[|h| + 1..] == p;
  }

  lemma HostPartWithPort(h: string, port: int, prefix: Option<string>)
    requires NoneIn(h, {':', '/'}) && port != InvalidPort
    ensures ParseHostPart(h + PortText(port) + PrefixText(prefix)) == Some((HostOf(h), port, prefix))
  {
    var after := IntText(port) + PrefixText(prefix);
    var rest := h + PortText(port) + PrefixText(prefix);
    assert rest == h + [':'] + after;
    IndexOfAnyAfter(h, ':', after, {':', '/'});
    assert rest[..|h|] == h;
    assert rest[|h| + 1..] == after;
    PortPartRoundTrip(port, prefix);
  }

  lemma HostPartRoundTrip(e: Endpoint)
    requires WellFormedEndpoint(e)
    ensures ParseHostPart(e.host.GetOr("") + PortText(e.port) + PrefixText(e.prefix))
         == Some((HostOf(e.host.GetOr("")), e.port, e.prefix))
  {
    var h := e.host.GetOr("");
    assert NoneIn(h, {':', '/'});
    if e.port != InvalidPort {
      HostPartWithPort(h, e.port, e.prefix);
    } else {
      assert h + PortText(e.port) + PrefixText(e.prefix) == h + PrefixText(e.prefix);
      HostPartNoPort(h, e.prefix);
    }
  }

  /** An endpoint text splits at the first colon into scheme and host part. */
  lemma SchemeSplit(name: string, rest: string, scheme: Scheme)
    requires NoneIn(name, {':'}) && ParseSchemeName(name) == Some(scheme)
    ensures ParseEndpoint(name + "://" + rest)
         == match ParseHostPart(rest)
            case None => None
            case Some(hp) => Some(Endpoint(scheme, hp.0, hp.1, hp.2))
  {
    var t := name + "://" + rest;
    assert t == name + [':'] + ("//" + rest);
    IndexOfAnyAfter(name, ':', "//" + rest, {':'});
    assert t[..|name|] == name;
    assert t[|name|..|name| + 3] == "://";
    assert t[|name| + 3..] == rest;
  }

  /** Every well-formed endpoint is read back from its text, up to what the
      text does not show: `:port` is there exactly when the port is valid and
      `/prefix` exactly when a prefix is present. */
  lemma {:induction false} EndpointRoundTrip(e: Endpoint)
    requires WellFormedEndpoint(e)
    ensures ParseEndpoint(EndpointText(e)) == Some(VisibleEndpoint(e))
  {
    var rest := e.host.GetOr("") + PortText(e.port) + PrefixText(e.prefix);
    assert EndpointText(e) == SchemeName(e.scheme) + "://" + rest;
    SchemeSplit(SchemeName(e.scheme), rest, VisibleEndpoint(e).scheme);
    HostPartRoundTrip(e);
  }

  lemma EndpointNoBlank(e: Endpoint)
    requires WellFormedEndpoint(e)
    ensures NoneIn(EndpointText(e), {' '})
  {
    IntTextFree(e.port, {' '});
  }

  /** A remapping line splits at its first two blanks. */
  lemma LineSplit(name: string, f: string, g: string)
    requires NoneIn(name, {' '}) && NoneIn(f, {' '})
    ensures ParseRemapLine(name + " " + f + " " + g + "\n")
         == match (ParseEndpoint(f), ParseEndpoint(g))
            case (Some(from), Some(to)) => Some(RemapEle(ParseTypeName(name), from, to))
            case _ => None
  {
    var t := name + " " + f + " " + g + "\n";
    var body := name + " " + f + " " + g;
    assert t[..|t| - 1] == body;
    var rest := f + " " + g;
    assert body == name + [' '] + rest;
    IndexOfAnyAfter(name, ' ', rest, {' '});
    assert body[..|name|] == name;
    assert body[|name| + 1..] == rest;
    IndexOfAnyAfter(f, ' ', g, {' '});
    assert rest[..|f|] == f;
    assert rest[|f| + 1..] == g;
  }

  /** Each keyword is blank-free and reads back as its rule type. */
  lemma TypeNameRoundTrip(t: RemapType)
    ensures NoneIn(TypeName(t), {' '}) && ParseTypeName(TypeName(t)) == t
  {
    match t
    case Map =>
    case ReverseMap =>
      assert "reverse_map"[0] != "map"[0];
    case Redirect =>
      assert "redirect"[0] != "map"[0];
      assert |"redirect"| != |"reverse_map"|;
    case RedirectTemporary =>
      assert "redirect_temporary"[0] != "map"[0];
      assert |"redirect_temporary"| != |"reverse_map"|;
      assert |"redirect_temporary"| != |"redirect"|;
    case OtherRuleType =>
  }

  /** Every well-formed remapping rule is read back from its printed line. */
  lemma {:induction false} RemapRoundTrip(e: RemapEle)
    requires WellFormed(e)
    ensures ParseRemapLine(RemapEleText(e)) == Some(Visible(e))
  {
    TypeNameRoundTrip(e.kind);
    EndpointNoBlank(e.from);
    LineSplit(TypeName(e.kind), EndpointText(e.from), EndpointText(e.to));
    EndpointRoundTrip(e.from);
    EndpointRoundTrip(e.to);
  }

  /** `print_remap_ele`: a diagnostic for a null element, otherwise the rule
      line, which reads back as the rule whenever the rule is well formed. */
  function PrintRemapEle(ele: Option<RemapEle>): (r: string)
    ensures ele.None? ==> r == "can't print ele\n"
    ensures ele.Some? ==> r == RemapEleText(ele.value)
    ensures ele.Some? && WellFormed(ele.value) ==> ParseRemapLine(r) == Some(Visible(ele.value))
  {
    match ele
    case None => "can't print ele\n"
    case Some(e) =>
      if WellFormed(e) then RemapRoundTrip(e); RemapEleText(e) else RemapEleText(e)
  }
}

=== FILE: results.dfy ===
/** Failure-carrying datatypes shared by the whole model: a value that may be
    absent (a C null pointer, a missing token) and the outcome of a call that
    may fail with an error code. */
module Results {

  datatype Option<+T> = None | Some(value: T) {

    /** The value, or `default` when absent. */
    function GetOr(default: T): T {
      match this
      case Some(v) => v
      case None => default
    }
  }

  datatype Result<+R, +E> = Success(value: R) | Failure(error: E)
}

=== FILE: splitdns.dfy ===
/** The split-DNS rule (`TSSplitDnsEle`) as `print_split_dns_ele` prints
    it: up to four `key=value ` tokens in a fixed order, each present exactly
    when its field is. The address and domain lists are rendered by helpers
    defined outside the test driver (`ip_addr_list_to_string`,
    `domain_list_to_string`); they appear here as function parameters. */
module SplitDns {
  import opened Results
  import opened Text

  /** The primary destination kinds. */
  datatype PdType = PdDomain | PdHost | PdIp | PdUrlRegex | PdUrl | PdUndefined

  datatype SplitDnsEle<L, D> = SplitDnsEle(
    pdType: PdType,
    pdVal: Option<string>,
    dnsServers: Option<L>,
    defDomain: Option<string>,
    searchList: Option<D>)

  /** The key the destination value is printed under; an IP or undefined
      destination has no key of its own and prints `?????`. */
  function PdName(t: PdType): string {
    match t
    case PdDomain => "dest_domain"
    case PdHost => "dest_host"
    case PdUrlRegex => "url_regex"
    case PdUrl => "url"
    case _ => "?????"
  }

  /** The body of the line: each present field as `key=value `, in the
      order destination, servers, default domain, search list. */
  function SplitDnsText<L, D>(e: SplitDnsEle<L, D>, ipListText: L -> string, domainListText: D -> string): (r: string)
    ensures r == "" <==> e.pdVal.None? && e.dnsServers.None? && e.defDomain.None? && e.searchList.None?
  {
    Token(PdName(e.pdType), e.pdVal)
    + Token("named", if e.dnsServers.Some? then Some(ipListText(e.dnsServers.value)) else None)
    + Token("dns_server", e.defDomain)
    + Token("search_list", if e.searchList.Some? then Some(domainListText(e.searchList.value)) else None)
  }

  /** `key=value ` for a present value, nothing for an absent one. */
  function Token(key: string, value: Option<string>): string {
    if value.Some? then key + "=" + value.value + " " else ""
  }

  /** `print_split_dns_ele`: the body and a newline, or a diagnostic for a
      null element. */
  function PrintSplitDnsEle<L, D>(ele: Option<SplitDnsEle<L, D>>, ipListText: L -> string,
                                  domainListText: D -> string): (r: string)
    ensures ele.None? ==> r == "can't print ele\n"
    ensures |r| > 0 && r[|r| - 1] == '\n'
  {
    match ele
    case None => "can't print ele\n"
    case Some(e) => SplitDnsText(e, ipListText, domainListText) + "\n"
  }

  // ---------------------------------------------------------------------
  // A `key=value ` line and its reader
  // ---------------------------------------------------------------------

  /** `k1=v1 k2=v2 ... kn=vn ` */
  function RenderFields(fs: seq<(string, string)>): string
    decreases |fs|
  {
    if |fs| == 0 then "" else fs[0].0 + "=" + fs[0].1 + " " + RenderFields(fs[1..])
  }

  /** Keys are non-empty words; values may hold blanks but no `=`. */
  predicate Readable(fs: seq<(string, string)>) {
    forall k :: 0 <= k < |fs| ==> |fs[k].0| > 0 && NoneIn(fs[k].0, {'=', ' '}) && NoneIn(fs[k].1, {'='})
  }

  /** Reads the first field off a line: a key runs to the next `=`, and its
      value runs to the last blank before the following key's `=` (or to the
      final blank). Returns the key, the value and the unread rest. */
  function ParseField(t: string): (r: Option<(string, string, string)>)
    ensures r.Some? ==> |r.value.2| < |t|
  {
    match IndexOfAny(t, {'='})
    case None => None
    case Some(i) => ParseValue(t[..i], t[i + 1..])
  }

  /** Reads the value of `key` from the text after its `=`. */
  function ParseValue(key: string, rest: string): (r: Option<(string, string, string)>)
    ensures r.Some? ==> |r.value.2| < |rest|
  {
    match IndexOfAny(rest, {'='})
    case None =>
      if |rest| > 0 && rest[|rest| - 1] == ' ' then Some((key, rest[..|rest| - 1], "")) else None
    case Some(j) =>
      match LastIndexOf(rest[..j], ' ')
      case None => None
      case Some(b) => Some((key, rest[..b], rest[b + 1..]))
  }

  /** Splits a line into its fields. */
  function ParseFields(t: string): Option<seq<(string, string)>>
    decreases |t|
  {
    if |t| == 0 then Some([])
    else
      match ParseField(t)
      case None => None
      case Some(f) =>
        match ParseFields(f.2)
        case None => None
        case Some(fs) => Some([(f.0, f.1)] + fs)
  }

  /** A key runs to the first `=`. */
  lemma KeySplit(k: string, rest: string)
    requires NoneIn(k, {'='})
    ensures ParseField(k + "=" + rest) == ParseValue(k, rest)
  {
    var t := k + "=" + rest;
    assert t == k + ['='] + rest;
    IndexOfAnyAfter(k, '=', rest, {'='});
    assert t[..|k|] == k && t[|k| + 1..] == rest;
  }

  /** The last field of a line. */
  lemma ParseLastField(k: string, v: string)
    requires NoneIn(k, {'='}) && NoneIn(v, {'='})
    ensures ParseField(k + "=" + v + " ") == Some((k, v, ""))
  {
    var rest := v + " ";
    assert k + "=" + v + " " == k + "=" + rest;
    KeySplit(k, rest);
    assert NoneIn(rest, {'='});
    IndexOfAnyAbsent(rest, {'='});
    assert rest[..|rest| - 1] == v;
  }

  /** A value followed by another key ends at the last blank before that
      key's `=`. */
  lemma ValueFollowed(k: string, v: string, k2: string, after: string)
    requires NoneIn(v, {'='}) && NoneIn(k2, {'=', ' '})
    ensures ParseValue(k, v + " " + k2 + "=" + after) == Some((k, v, k2 + "=" + after))
  {
    var head := v + " " + k2;
    var rest := v + " " + k2 + "=" + after;
    assert rest == head + ['='] + after;
    assert NoneIn(head, {'='});
    IndexOfAnyAfter(head, '=', after, {'='});
    assert rest[..|head|] == head;
    assert head == v + [' '] + k2;
    LastIndexOfBefore(v, ' ', k2);
    assert rest[..|v|] == v;
    assert rest[|v| + 1..] == k2 + "=" + after;
  }

  /** A field followed by another one. */
  lemma ParseInnerField(k: string, v: string, k2: string, after: string)
    requires NoneIn(k, {'='}) && NoneIn(v, {'='}) && NoneIn(k2, {'=', ' '})
    ensures ParseField(k + "=" + v + " " + (k2 + "=" + after)) == Some((k, v, k2 + "=" + after))
  {
    InnerFieldText(k, v, k2, after);
    KeySplit(k, v + " " + k2 + "=" + after);
    ValueFollowed(k, v, k2, after);
  }

  lemma InnerFieldText(k: string, v: string, k2: string, after: string)
    ensures k + "=" + v + " " + (k2 + "=" + after) == k + "=" + (v + " " + k2 + "=" + after)
  {
  }

  /** The rendering of the first field and the rest. */
  lemma RenderHead(fs: seq<(string, string)>)
    requires |fs| > 0
    ensures RenderFields(fs) == fs[0].0 + "=" + fs[0].1 + " " + RenderFields(fs[1..])
  {
  }

  /** The same, with the key split off the rest. */
  lemma RenderKeyFirst(fs: seq<(string, string)>)
    requires |fs| > 0
    ensures RenderFields(fs) == fs[0].0 + "=" + (fs[0].1 + " " + RenderFields(fs[1..]))
  {
    RenderHead(fs);
    KeyFirst(fs[0].0, fs[0].1, RenderFields(fs[1..]));
  }

  lemma KeyFirst(k: string, v: string, rest: string)
    ensures k + "=" + v + " " + rest == k + "=" + (v + " " + rest)
  {
  }

  /** The rendering of a single field. */
  lemma RenderOne(fs: seq<(string, string)>)
    requires |fs| == 1
    ensures RenderFields(fs) == fs[0].0 + "=" + fs[0].1 + " " && RenderFields(fs[1..]) == ""
  {
    assert fs[1..] == [];
  }

  /** The first field of a rendering reads back, leaving the rendering of
      the fields after it. */
  lemma ParseFieldOfRender(fs: seq<(string, string)>)
    requires |fs| > 0 && NoneIn(fs[0].0, {'='}) && NoneIn(fs[0].1, {'='})
    requires |fs| > 1 ==> NoneIn(fs[1].0, {'=', ' '})
    ensures ParseField(RenderFields(fs)) == Some((fs[0].0, fs[0].1, RenderFields(fs[1..])))
  {
    if |fs| == 1 {
      RenderOne(fs);
      ParseLastField(fs[0].0, fs[0].1);
    } else {
      var tail := fs[1..];
      RenderHead(fs);
      RenderKeyFirst(tail);
      ParseInnerField(fs[0].0, fs[0].1, tail[0].0, tail[0].1 + " " + RenderFields(tail[1..]));
    }
  }

  /** Reading the first field, then the rest. */
  lemma ParseFieldsCons(t: string, k: string, v: string, rest: string, tail: seq<(string, string)>)
    requires |t| > 0 && ParseField(t) == Some((k, v, rest)) && ParseFields(rest) == Some(tail)
    ensures ParseFields(t) == Some([(k, v)] + tail)
  {
  }

  /** The first field of a readable list, and the list after it. */
  lemma ReadableSplit(fs: seq<(string, string)>)
    requires |fs| > 0 && Readable(fs)
    ensures NoneIn(fs[0].0, {'='}) && NoneIn(fs[0].1, {'='})
    ensures |fs| > 1 ==> NoneIn(fs[1].0, {'=', ' '})
    ensures Readable(fs[1..])
  {
    assert forall k :: 0 <= k < |fs| - 1 ==> fs[1..][k] == fs[k + 1];
  }

  /** Every readable list of fields is read back from its rendering. */
  lemma {:induction false} FieldsRoundTrip(fs: seq<(string, string)>)
    requires Readable(fs)
    ensures ParseFields(RenderFields(fs)) == Some(fs)
    decreases |fs|
  {
    if |fs| > 0 {
      ReadableSplit(fs);
      FieldsRoundTrip(fs[1..]);
      FieldInFront(fs);
    }
  }

  /** A field in front of fields that read back reads back with them. */
  lemma FieldInFront(fs: seq<(string, string)>)
    requires |fs| > 0 && NoneIn(fs[0].0, {'='}) && NoneIn(fs[0].1, {'='})
    requires |fs| > 1 ==> NoneIn(fs[1].0, {'=', ' '})
    requires ParseFields(RenderFields(fs[1..])) == Some(fs[1..])
    ensures ParseFields(RenderFields(fs)) == Some(fs)
  {
    ParseFieldOfRender(fs);
    RenderHead(fs);
    ParseFieldsCons(RenderFields(fs), fs[0].0, fs[0].1, RenderFields(fs[1..]), fs[1..]);
    assert fs == [(fs[0].0, fs[0].1)] + fs[1..];
  }

  // ---------------------------------------------------------------------
  // The split-DNS line as fields
  // ---------------------------------------------------------------------

  /** What a printed split-DNS line carries: the destination key and value,
      and the rendered server list, default domain and search list. */
  datatype SplitDnsView = SplitDnsView(
    pd: Option<(string, string)>,
    named: Option<string>,
    defDomain: Option<string>,
    search: Option<string>)

  function View<L, D>(e: SplitDnsEle<L, D>, ipListText: L -> string, domainListText: D -> string): SplitDnsView {
    SplitDnsView(
      if e.pdVal.Some? then Some((PdName(e.pdType), e.pdVal.value)) else None,
      if e.dnsServers.Some? then Some(ipListText(e.dnsServers.value)) else None,
      e.defDomain,
      if e.searchList.Some? then Some(domainListText(e.searchList.value)) else None)
  }

  function Field(key: string, value: Option<string>): seq<(string, string)> {
    if value.Some? then [(key, value.value)] else []
  }

  /** The fields after the destination, in printing order. */
  function TailFields(named: Option<string>, def: Option<string>, search: Option<string>): seq<(string, string)> {
    Field("named", named) + Field("dns_server", def) + Field("search_list", search)
  }

  /** The fields of a view, in printing order. */
  function ViewFields(v: SplitDnsView): seq<(string, string)> {
    (if v.pd.Some? then [v.pd.value] else []) + TailFields(v.named, v.defDomain, v.search)
  }

  predicate IsPdName(k: string) {
    k == "dest_domain" || k == "dest_host" || k == "url_regex" || k == "url" || k == "?????"
  }

  /** Takes an optional field with the given key off the front. */
  function TakeField(fs: seq<(string, string)>, key: string): (Option<string>, seq<(string, string)>) {
    if |fs| > 0 && fs[0].0 == key then (Some(fs[0].1), fs[1..]) else (None, fs)
  }

  /** Reads the fields of a split-DNS line back into a view; the fields
      must come in printing order, each at most once. */
  function FieldsView(fs: seq<(string, string)>): Option<SplitDnsView> {
    if |fs| > 0 && IsPdName(fs[0].0) then TailView(Some(fs[0]), fs[1..]) else TailView(None, fs)
  }

  /** Reads the fields after the destination. */
  function TailView(pd: Option<(string, string)>, fs: seq<(string, string)>): Option<SplitDnsView> {
    var (named, fs2) := TakeField(fs, "named");
    var (def, fs3) := TakeField(fs2, "dns_server");
    var (search, fs4) := TakeField(fs3, "search_list");
    if |fs4| == 0 then Some(SplitDnsView(pd, named, def, search)) else None
  }

  /** Reads back a line printed by `PrintSplitDnsEle`. */
  function ParseSplitDnsLine(t: string): Option<SplitDnsView> {
    if |t| == 0 || t[|t| - 1] != '\n' then None
    else
      match ParseFields(t[..|t| - 1])
      case None => None
      case Some(fs) => FieldsView(fs)
  }

  lemma TakeFieldHit(key: string, value: string, rest: seq<(string, string)>)
    ensures TakeField([(key, value)] + rest, key) == (Some(value), rest)
  {
    assert ([(key, value)] + rest)[1..] == rest;
  }

  /** The four kinds of key never clash. */
  lemma KeysDistinct()
    ensures !IsPdName("named") && !IsPdName("dns_server") && !IsPdName("search_list")
    ensures "dns_server" != "named" && "search_list" != "named" && "search_list" != "dns_server"
  {
    assert "named"[0] != "?????"[0];
    assert |"named"| != |"dest_domain"| && |"named"| != |"dest_host"| && |"named"| != |"url"|;
    assert "named"[0] != "url_regex"[0];
    assert |"dns_server"| != |"dest_domain"| && |"dns_server"| != |"dest_host"|;
    assert |"dns_server"| != |"url_regex"| && |"dns_server"| != |"url"| && |"dns_server"| != |"?????"|;
    assert |"search_list"| != |"dest_host"| && |"search_list"| != |"url_regex"|;
    assert |"search_list"| != |"url"| && |"search_list"| != |"?????"|;
    assert "search_list"[0] != "dest_domain"[0];
    assert |"dns_server"| != |"named"| && |"search_list"| != |"named"| && |"search_list"| != |"dns_server"|;
  }

  lemma TakeFieldMiss(fs: seq<(string, string)>, key: string)
    requires |fs| == 0 || fs[0].0 != key
    ensures TakeField(fs, key) == (None, fs)
  {
  }

  /** Reads the view back from the fields that follow the destination. */
  lemma TailFieldsBack(named: Option<string>, def: Option<string>, search: Option<string>)
    ensures var fs := Field("named", named) + Field("dns_server", def) + Field("search_list", search);
      && (|fs| == 0 || !IsPdName(fs[0].0))
      && TakeField(fs, "named") == (named, Field("dns_server", def) + Field("search_list", search))
      && TakeField(Field("dns_server", def) + Field("search_list", search), "dns_server")
         == (def, Field("search_list", search))
      && TakeField(Field("search_list", search), "search_list") == (search, [])
  {
    KeysDistinct();
    var c := Field("search_list", search);
    var b := Field("dns_server", def) + c;
    var a := Field("named", named) + b;
    assert Field("named", named) + Field("dns_server", def) + Field("search_list", search) == a;
    assert |a| == 0 || a[0].0 == "named" || a[0].0 == "dns_server" || a[0].0 == "search_list";
    if search.Some? {
      TakeFieldHit("search_list", search.value, []);
      assert c == [("search_list", search.value)] + [];
    } else {
      assert c == [];
      assert TakeField(c, "search_list") == (None, []);
    }
    if def.Some? {
      TakeFieldHit("dns_server", def.value, c);
    } else {
      assert b == c;
      TakeFieldMiss(b, "dns_server");
    }
    if named.Some? {
      TakeFieldHit("named", named.value, b);
    } else {
      assert a == b;
      TakeFieldMiss(a, "named");
    }
  }

  /** The fields after the destination read back, whatever destination
      came before them. */
  lemma TailViewBack(pd: Option<(string, string)>, named: Option<string>, def: Option<string>, search: Option<string>)
    ensures TailView(pd, TailFields(named, def, search)) == Some(SplitDnsView(pd, named, def, search))
  {
    TailFieldsBack(named, def, search);
  }

  lemma ViewFieldsBack(v: SplitDnsView)
    requires v.pd.Some? ==> IsPdName(v.pd.value.0)
    ensures FieldsView(ViewFields(v)) == Some(v)
  {
    var rest := TailFields(v.named, v.defDomain, v.search);
    TailFieldsBack(v.named, v.defDomain, v.search);
    TailViewBack(v.pd, v.named, v.defDomain, v.search);
    if v.pd.Some? {
      assert ViewFields(v) == [v.pd.value] + rest;
      assert ([v.pd.value] + rest)[1..] == rest;
    } else {
      assert ViewFields(v) == rest;
    }
  }

  lemma {:induction false} RenderAppend(a: seq<(string, string)>, b: seq<(string, string)>)
    ensures RenderFields(a + b) == RenderFields(a) + RenderFields(b)
    decreases |a|
  {
    if |a| == 0 {
      assert a + b == b;
    } else {
      assert (a + b)[1..] == a[1..] + b;
      RenderAppend(a[1..], b);
    }
  }

  lemma RenderField(key: string, value: Option<string>)
    ensures RenderFields(Field(key, value)) == Token(key, value)
  {
  }

  lemma ViewText(v: SplitDnsView)
    ensures RenderFields(ViewFields(v))
         == (if v.pd.Some? then Token(v.pd.value.0, Some(v.pd.value.1)) else "")
            + Token("named", v.named) + Token("dns_server", v.defDomain) + Token("search_list", v.search)
  {
    var a := if v.pd.Some? then [v.pd.value] else [];
    var p := if v.pd.Some? then Token(v.pd.value.0, Some(v.pd.value.1)) else "";
    RenderAppend(a, TailFields(v.named, v.defDomain, v.search));
    TailText(v.named, v.defDomain, v.search);
    if v.pd.Some? {
      RenderField(v.pd.value.0, Some(v.pd.value.1));
      assert Field(v.pd.value.0, Some(v.pd.value.1)) == a;
    }
    assert RenderFields(a) == p;
    TextAssoc(p, Token("named", v.named), Token("dns_server", v.defDomain), Token("search_list", v.search));
  }

  lemma TailText(named: Option<string>, def: Option<string>, search: Option<string>)
    ensures RenderFields(TailFields(named, def, search))
         == Token("named", named) + Token("dns_server", def) + Token("search_list", search)
  {
    var b := Field("named", named);
    var c := Field("dns_server", def);
    var d := Field("search_list", search);
    RenderAppend(b + c, d);
    RenderAppend(b, c);
    RenderField("named", named);
    RenderField("dns_server", def);
    RenderField("search_list", search);
  }

  lemma TextAssoc(p: string, x: string, y: string, z: string)
    ensures p + (x + y + z) == p + x + y + z
  {
  }

  lemma TextIsFields<L, D>(e: SplitDnsEle<L, D>, ipListText: L -> string, domainListText: D -> string)
    ensures SplitDnsText(e, ipListText, domainListText) == RenderFields(ViewFields(View(e, ipListText, domainListText)))
  {
    ViewText(View(e, ipListText, domainListText));
  }

  /** Values without `=` print readably. */
  predicate ReadableEle<L, D>(e: SplitDnsEle<L, D>, ipListText: L -> string, domainListText: D -> string) {
    && (e.pdVal.Some? ==> NoneIn(e.pdVal.value, {'='}))
    && (e.dnsServers.Some? ==> NoneIn(ipListText(e.dnsServers.value), {'='}))
    && (e.defDomain.Some? ==> NoneIn(e.defDomain.value, {'='}))
    && (e.searchList.Some? ==> NoneIn(domainListText(e.searchList.value), {'='}))
  }

  /** A key that is a non-empty word and an `=`-free value make a readable
      field. */
  lemma FieldReadable(key: string, value: Option<string>)
    requires |key| > 0 && NoneIn(key, {'=', ' '})
    requires value.Some? ==> NoneIn(value.value, {'='})
    ensures Readable(Field(key, value))
  {
  }

  lemma ReadableAppend(a: seq<(string, string)>, b: seq<(string, string)>)
    requires Readable(a) && Readable(b)
    ensures Readable(a + b)
  {
    forall k | 0 <= k < |a + b|
      ensures |(a + b)[k].0| > 0 && NoneIn((a + b)[k].0, {'=', ' '}) && NoneIn((a + b)[k].1, {'='})
    {
      if k >= |a| {
        assert (a + b)[k] == b[k - |a|];
      }
    }
  }

  /** Every destination key is a non-empty word. */
  lemma PdNameWord(k: string)
    requires IsPdName(k)
    ensures |k| > 0 && NoneIn(k, {'=', ' '})
  {
  }

  /** A view whose values hold no `=` has readable fields. */
  lemma ViewFieldsReadable(v: SplitDnsView)
    requires v.pd.Some? ==> IsPdName(v.pd.value.0) && NoneIn(v.pd.value.1, {'='})
    requires v.named.Some? ==> NoneIn(v.named.value, {'='})
    requires v.defDomain.Some? ==> NoneIn(v.defDomain.value, {'='})
    requires v.search.Some? ==> NoneIn(v.search.value, {'='})
    ensures Readable(ViewFields(v))
  {
    var a: seq<(string, string)> := if v.pd.Some? then [v.pd.value] else [];
    if v.pd.Some? {
      PdNameWord(v.pd.value.0);
      FieldReadable(v.pd.value.0, Some(v.pd.value.1));
      assert Field(v.pd.value.0, Some(v.pd.value.1)) == a;
    }
    TailReadable(v.named, v.defDomain, v.search);
    ReadableAppend(a, TailFields(v.named, v.defDomain, v.search));
  }

  /** `=`-free values after the destination make readable fields. */
  lemma TailReadable(named: Option<string>, def: Option<string>, search: Option<string>)
    requires named.Some? ==> NoneIn(named.value, {'='})
    requires def.Some? ==> NoneIn(def.value, {'='})
    requires search.Some? ==> NoneIn(search.value, {'='})
    ensures Readable(TailFields(named, def, search))
  {
    assert NoneIn("named", {'=', ' '});
    assert NoneIn("dns_server", {'=', ' '});
    assert NoneIn("search_list", {'=', ' '});
    FieldReadable("named", named);
    FieldReadable("dns_server", def);
    FieldReadable("search_list", search);
    ReadableAppend(Field("named", named), Field("dns_server", def));
    ReadableAppend(Field("named", named) + Field("dns_server", def), Field("search_list", search));
  }

  lemma LineFields(body: string)
    ensures ParseSplitDnsLine(body + "\n")
         == match ParseFields(body)
            case None => None
            case Some(fs) => FieldsView(fs)
  {
    var t := body + "\n";
    assert t[..|t| - 1] == body;
  }

  /** Every view with `=`-free values is read back from its line. */
  lemma ViewRoundTrip(v: SplitDnsView)
    requires v.pd.Some? ==> IsPdName(v.pd.value.0) && NoneIn(v.pd.value.1, {'='})
    requires v.named.Some? ==> NoneIn(v.named.value, {'='})
    requires v.defDomain.Some? ==> NoneIn(v.defDomain.value, {'='})
    requires v.search.Some? ==> NoneIn(v.search.value, {'='})
    ensures ParseSplitDnsLine(RenderFields(ViewFields(v)) + "\n") == Some(v)
  {
    LineFields(RenderFields(ViewFields(v)));
    ViewFieldsReadable(v);
    FieldsRoundTrip(ViewFields(v));
    ViewFieldsBack(v);
  }

  /** Every printed split-DNS rule reads back as its view: each token is
      present exactly when its field is, under its own key and in the fixed
      order, and carries the field's value. */
  lemma {:induction false} SplitDnsRoundTrip<L, D>(e: SplitDnsEle<L, D>, ipListText: L -> string,
                                                  domainListText: D -> string)
    requires ReadableEle(e, ipListText, domainListText)
    ensures ParseSplitDnsLine(PrintSplitDnsEle(Some(e), ipListText, domainListText))
         == Some(View(e, ipListText, domainListText))
  {
    var v := View(e, ipListText, domainListText);
    TextIsFields(e, ipListText, domainListText);
    assert PrintSplitDnsEle(Some(e), ipListText, domainListText) == RenderFields(ViewFields(v)) + "\n";
    assert v.pd.Some? ==> IsPdName(v.pd.value.0);
    ViewRoundTrip(v);
  }
}

=== FILE: text.dfy ===
/** Character-string helpers standing in for the C library calls the test
    driver relies on: `strstr`, `strncmp`, `strcasecmp`, `strtok`, and the
    `%d` conversion of `printf`, together with the parsers that invert them. */
module Text {
  import opened Results

  /** No character of `s` belongs to `cs`. */
  predicate NoneIn(s: string, cs: set<char>) {
    forall i :: 0 <= i < |s| ==> s[i] !in cs
  }

  /** `strncmp(s, p, |p|) == 0`: `p` is a prefix of `s`. */
  predicate IsPrefix(p: string, s: string) {
    |p| <= |s| && s[..|p|] == p
  }

  /** `strstr(s, p) != NULL`: `p` occurs somewhere in `s`. */
  predicate Contains(s: string, p: string)
    decreases |s|
  {
    IsPrefix(p, s) || (|s| > 0 && Contains(s[1..], p))
  }

  /** `Contains` holds exactly when `p` is a prefix of some suffix of `s`. */
  lemma {:induction false} ContainsAt(s: string, p: string)
    ensures Contains(s, p) <==> exists i :: 0 <= i <= |s| && IsPrefix(p, s[i..])
    decreases |s|
  {
    assert s[0..] == s;
    if |s| > 0 {
      ContainsAt(s[1..], p);
      assert forall i :: 0 <= i <= |s[1..]| ==> s[1..][i..] == s[i + 1..];
      if exists i :: 0 <= i <= |s| && IsPrefix(p, s[i..]) {
        var i :| 0 <= i <= |s| && IsPrefix(p, s[i..]);
        if i > 0 {
          assert IsPrefix(p, s[1..][i - 1..]);
        }
      }
    }
  }

  /** ASCII lower-casing as `strcasecmp` does it in the C locale. */
  function Lower(c: char): (r: char)
    ensures 'A' <= c <= 'Z' ==> 'a' <= r <= 'z'
    ensures !('A' <= c <= 'Z') ==> r == c
  {
    if 'A' <= c <= 'Z' then (c as int + 32) as char else c
  }

  /** `strcasecmp(a, b) == 0`. */
  predicate EqualsIgnoringCase(a: string, b: string) {
    |a| == |b| && forall i :: 0 <= i < |a| ==> Lower(a[i]) == Lower(b[i])
  }

  /** Index of the first character of `s` that lies in `cs`, if any. */
  function IndexOfAny(s: string, cs: set<char>): (r: Option<nat>)
    ensures r.Some? ==> r.value < |s| && s[r.value] in cs && NoneIn(s[..r.value], cs)
    ensures r.None? ==> NoneIn(s, cs)
    decreases |s|
  {
    if |s| == 0 then None
    else if s[0] in cs then Some(0)
    else match IndexOfAny(s[1..], cs)
      case None => None
      case Some(k) => Some(k + 1)
  }

  /** Splitting `a + [c] + b` at the first character of `cs` finds the `c`
      right after `a` when `a` holds none of them. */
  lemma IndexOfAnyAfter(a: string, c: char, b: string, cs: set<char>)
    requires NoneIn(a, cs) && c in cs
    ensures IndexOfAny(a + [c] + b, cs) == Some(|a|)
  {
    var s := a + [c] + b;
    assert s[..|a|] == a;
    assert s[|a|] == c;
    assert forall j :: |a| < j <= |s| ==> s[..j][|a|] == c;
  }

  /** A string holding none of `cs` has no index for them. */
  lemma IndexOfAnyAbsent(a: string, cs: set<char>)
    requires NoneIn(a, cs)
    ensures IndexOfAny(a, cs) == None
  {
  }

  /** Index of the last occurrence of `c` in `s`, if any. */
  function LastIndexOf(s: string, c: char): (r: Option<nat>)
    ensures r.Some? ==> r.value < |s| && s[r.value] == c && NoneIn(s[r.value + 1..], {c})
    ensures r.None? ==> NoneIn(s, {c})
    decreases |s|
  {
    if |s| == 0 then None
    else if s[|s| - 1] == c then Some(|s| - 1)
    else
      var r := LastIndexOf(s[..|s| - 1], c);
      LastIndexOfStep(s, c, r);
      r
  }

  /** What the search of all but the last character tells about `s` when
      the last character is not `c`. */
  lemma LastIndexOfStep(s: string, c: char, r: Option<nat>)
    requires |s| > 0 && s[|s| - 1] != c
    requires r.Some? ==> r.value < |s| - 1 && s[..|s| - 1][r.value] == c
                         && NoneIn(s[..|s| - 1][r.value + 1..], {c})
    requires r.None? ==> NoneIn(s[..|s| - 1], {c})
    ensures r.Some? ==> r.value < |s| && s[r.value] == c && NoneIn(s[r.value + 1..], {c})
    ensures r.None? ==> NoneIn(s, {c})
  {
    var t := s[..|s| - 1];
    assert s == t + [s[|s| - 1]];
    if r.Some? {
      assert s[r.value + 1..] == t[r.value + 1..] + [s[|s| - 1]];
    }
  }

  /** The last `c` of `a + [c] + b` is the one after `a` when `b` holds none. */
  lemma {:induction false} LastIndexOfBefore(a: string, c: char, b: string)
    requires NoneIn(b, {c})
    ensures LastIndexOf(a + [c] + b, c) == Some(|a|)
    decreases |b|
  {
    var s := a + [c] + b;
    if |b| > 0 {
      assert s[|s| - 1] == b[|b| - 1];
      assert s[..|s| - 1] == a + [c] + b[..|b| - 1];
      LastIndexOfBefore(a, c, b[..|b| - 1]);
    }
  }

  // ---------------------------------------------------------------------
  // strtok
  // ---------------------------------------------------------------------

  /** Length of the leading run of `s` free of `delims`. */
  function RunLength(s: string, delims: set<char>): (n: nat)
    ensures n <= |s| && NoneIn(s[..n], delims)
    ensures n < |s| ==> s[n] in delims
  {
    match IndexOfAny(s, delims)
    case None => |s|
    case Some(k) => k
  }

  /** The successive results of `strtok(s, delims)`, `strtok(NULL, delims)`,
      ...: the maximal non-empty runs of characters outside `delims`. */
  function Tokens(s: string, delims: set<char>): (r: seq<string>)
    ensures forall k :: 0 <= k < |r| ==> |r[k]| > 0 && NoneIn(r[k], delims)
    decreases |s|
  {
    if |s| == 0 then []
    else if s[0] in delims then Tokens(s[1..], delims)
    else
      var n := RunLength(s, delims);
      [s[..n]] + Tokens(s[n..], delims)
  }

  /** The characters of `s` that are not delimiters, in order. */
  function Strip(s: string, delims: set<char>): string
    decreases |s|
  {
    if |s| == 0 then [] else (if s[0] in delims then [] else [s[0]]) + Strip(s[1..], delims)
  }

  function Flatten(ss: seq<string>): string
    decreases |ss|
  {
    if |ss| == 0 then [] else ss[0] + Flatten(ss[1..])
  }

  lemma StripAppend(a: string, b: string, delims: set<char>)
    ensures Strip(a + b, delims) == Strip(a, delims) + Strip(b, delims)
    decreases |a|
  {
    if |a| == 0 {
      assert a + b == b;
    } else {
      assert (a + b)[1..] == a[1..] + b;
      StripAppend(a[1..], b, delims);
    }
  }

  lemma StripFree(a: string, delims: set<char>)
    requires NoneIn(a, delims)
    ensures Strip(a, delims) == a
    decreases |a|
  {
    if |a| > 0 {
      StripFree(a[1..], delims);
    }
  }

  /** Tokenising loses exactly the delimiters: the tokens glued together are
      the input with every delimiter removed. */
  lemma {:induction false} TokensCoverInput(s: string, delims: set<char>)
    ensures Flatten(Tokens(s, delims)) == Strip(s, delims)
    decreases |s|
  {
    if |s| == 0 {
    } else if s[0] in delims {
      TokensCoverInput(s[1..], delims);
    } else {
      var n := RunLength(s, delims);
      TokensCoverInput(s[n..], delims);
      assert s == s[..n] + s[n..];
      StripAppend(s[..n], s[n..], delims);
      StripFree(s[..n], delims);
      var ts := [s[..n]] + Tokens(s[n..], delims);
      assert ts[1..] == Tokens(s[n..], delims);
    }
  }

  /** A word free of delimiters followed by a delimiter is one whole token. */
  lemma {:induction false} TokensWord(w: string, d: char, rest: string, delims: set<char>)
    requires |w| > 0 && NoneIn(w, delims) && d in delims
    ensures Tokens(w + [d] + rest, delims) == [w] + Tokens(rest, delims)
  {
    var s := w + [d] + rest;
    IndexOfAnyAfter(w, d, rest, delims);
    assert RunLength(s, delims) == |w|;
    assert s[..|w|] == w;
    assert s[|w|..] == [d] + rest;
    assert ([d] + rest)[1..] == rest;
  }

  /** A word free of delimiters that ends the input is the last token. */
  lemma {:induction false} TokensLastWord(w: string, delims: set<char>)
    requires |w| > 0 && NoneIn(w, delims)
    ensures Tokens(w, delims) == [w]
  {
    IndexOfAnyAbsent(w, delims);
    assert w[..|w|] == w;
    assert w[|w|..] == [];
  }

  /** Leading delimiters are skipped. */
  lemma {:induction false} TokensSkipDelims(ds: string, rest: string, delims: set<char>)
    requires forall i :: 0 <= i < |ds| ==> ds[i] in delims
    ensures Tokens(ds + rest, delims) == Tokens(rest, delims)
    decreases |ds|
  {
    if |ds| > 0 {
      assert (ds + rest)[1..] == ds[1..] + rest;
      TokensSkipDelims(ds[1..], rest, delims);
    } else {
      assert ds + rest == rest;
    }
  }

  /** The `n`-th call of `strtok` (counting from zero); `None` stands for
      the null pointer it returns once the input is exhausted. */
  function NthToken(s: string, delims: set<char>, n: nat): (r: Option<string>)
    ensures r.Some? ==> |r.value| > 0 && NoneIn(r.value, delims)
    ensures r.Some? <==> n < |Tokens(s, delims)|
  {
    var ts := Tokens(s, delims);
    if n < |ts| then Some(ts[n]) else None
  }

  // ---------------------------------------------------------------------
  // printf("%d") and its inverse
  // ---------------------------------------------------------------------

  predicate IsDigit(c: char) {
    '0' <= c <= '9'
  }

  function DigitChar(d: nat): (c: char)
    requires d < 10
    ensures IsDigit(c) && c as int - '0' as int == d
  {
    (d + '0' as int) as char
  }

  /** Decimal digits of a natural number, most significant first. */
  function NatText(n: nat): (r: string)
    ensures |r| > 0 && forall i :: 0 <= i < |r| ==> IsDigit(r[i])
    decreases n
  {
    if n < 10 then [DigitChar(n)] else NatText(n / 10) + [DigitChar(n % 10)]
  }

  /** `printf("%d", i)`: a minus sign for negative values, then the digits. */
  function IntText(i: int): (r: string)
    ensures |r| > 0 && (i < 0 <==> r[0] == '-')
    ensures forall k :: 0 <= k < |r| ==> IsDigit(r[k]) || (k == 0 && r[k] == '-')
  {
    if i < 0 then "-" + NatText(-i) else NatText(i)
  }

  /** Value of a run of decimal digits. */
  function DigitsValue(s: string): nat
    requires forall i :: 0 <= i < |s| ==> IsDigit(s[i])
    decreases |s|
  {
    if |s| == 0 then 0
    else
      assert IsDigit(s[|s| - 1]);
      DigitsValue(s[..|s| - 1]) * 10 + (s[|s| - 1] as int - '0' as int)
  }

  /** Reads back what `NatText` writes. */
  function ParseNat(s: string): (r: Option<nat>)
    ensures r.Some? ==> |s| > 0
  {
    if |s| > 0 && forall i :: 0 <= i < |s| ==> IsDigit(s[i]) then Some(DigitsValue(s)) else None
  }

  /** Reads back what `IntText` writes: an optional minus sign and digits. */
  function ParseInt(s: string): Option<int> {
    if |s| > 0 && s[0] == '-' then
      match ParseNat(s[1..])
      case None => None
      case Some(n) => Some(-(n as int))
    else
      match ParseNat(s)
      case None => None
      case Some(n) => Some(n as int)
  }

  lemma {:induction false} NatTextRoundTrip(n: nat)
    ensures ParseNat(NatText(n)) == Some(n)
    decreases n
  {
    var s := NatText(n);
    if n >= 10 {
      NatTextRoundTrip(n / 10);
      assert s[..|s| - 1] == NatText(n / 10);
      assert s[|s| - 1] == DigitChar(n % 10);
      assert DigitsValue(s) == (n / 10) * 10 + n % 10;
    } else {
      assert s[..0] == [];
      assert DigitsValue(s) == n;
    }
  }

  /** Every integer printed with `%d` is read back unchanged. */
  lemma IntTextRoundTrip(i: int)
    ensures ParseInt(IntText(i)) == Some(i)
  {
    if i < 0 {
      NatTextRoundTrip(-i);
      assert IntText(i)[1..] == NatText(-i);
    } else {
      NatTextRoundTrip(i);
    }
  }

  /** `%d` output never holds a character other than a digit or minus. */
  lemma IntTextFree(i: int, cs: set<char>)
    requires forall c :: c in cs ==> !IsDigit(c) && c != '-'
    ensures NoneIn(IntText(i), cs)
  {
  }
}
